=== FILE: README.md ===
# freewrite entry store, modelled in Dafny

freewrite is a journaling app. Each journal entry is a Markdown file in one
directory. Its file name carries the entry's UUID, its creation instant and
its mood: `[<UUID>]-[yyyy-MM-dd-HH-mm-ss]-[V|E|P].md`. An AI "insight"
reply to an entry is kept beside it in a JSON sidecar named after the body
(`…-ai.json`).

This project models the core of the app:

- the entry store of `ContentViewModel`: loading the directory, selecting,
  saving, creating, deleting and favouriting entries, and recomputing
  previews after a load;
- the entry, mood and insight-section records;
- the filename codec and the preview rule;
- the Markdown parsing of AI replies, the greeting strip and the clipboard
  format;
- the word count and the writing streak;
- the checks the two AI requests make before they go to the network;
- the weekday headings of the calendar.

Every transition is a pure function from one store state to the next.
Things outside the program become parameters:

- the directory's contents are a map from names to texts;
- whether a write, a removal or a directory listing succeeds is a flag;
- which files cannot be read is a set;
- the JSON coder is a parameter;
- the clock reading, fresh UUIDs, the presence of an API key, the locale's
  weekday symbols and its first weekday are all inputs.

Modules follow the program's structure:

- `Text`, `Wrappers`: helpers — trimming, splitting, joining, ASCII case.
- `Uuids`, `Timestamps`: the printed forms of a UUID and a file-name
  instant, with their parsers.
- `Moods`, `Entries`, `Sections`: the records of `AppDataModels.swift`.
- `FilenameCodec`: the file-name layout and the sidecar name.
- `Preview`: the 30-character preview rule.
- `Markdown`: `parseMarkdown`, the greeting strip and the clipboard text.
- `Disk`, `Insights`: the directory, and saving and loading sidecars.
- `Ordering`: the newest-first sort.
- `Store`: the view model's entry state and its transitions.
- `Hydration`: `updateAllPreviews`, as a sequential pass plus a commit.
- `Stats`: `wordCount`, `entryDates` and `currentStreak`.
- `Requests`: the gates of `fetchAIResponse` and `fetchGuidingQuestion`.
- `Weekdays`: `capitalizedFirstLettersOfWeekdays`.

## Model

| member | source | states |
|---|---|---|
| Entries.CreateNew | freewrite/freewrite/Models/AppDataModels.swift:19-50 | a new entry has the given id, mood and instant, an empty preview and no favourite flag, and its file name decodes back to exactly that id, instant and mood |
| Entries.FromFilename | freewrite/freewrite/ViewModels/ContentViewModel.swift:502-556 | the intended loader (names decoded with the corrected `.md` ending of the first finding) builds an entry exactly for the names that decode; the entry keeps the name, takes id, instant and mood from it, shows the loading placeholder and is not a favourite |
| Entries.IndexOf | freewrite/freewrite/ViewModels/ContentViewModel.swift:604-608 | `firstIndex(where:)` on ids: the first position holding the id, and none exactly when no entry has it |
| Entries.SameEntryIgnoresFields | freewrite/freewrite/Models/AppDataModels.swift:13-16 | entry equality is by id alone: it is reflexive and symmetric, and it ignores the preview and the favourite flag |
| Moods.FromInitial | freewrite/freewrite/ViewModels/ContentViewModel.swift:535-545 | only the tags `V`, `E` and `P` name a mood, and each names the mood whose initial it is |
| Moods.InitialRoundTrip | freewrite/freewrite/Models/AppDataModels.swift:33-38 | the tag written for a mood reads back as that mood, and different moods get different tags |
| Moods.RawValuesDistinct | freewrite/freewrite/Models/AppDataModels.swift:127-130 | the three raw values are distinct |
| Uuids.Format | freewrite/freewrite/Models/AppDataModels.swift:39 | a UUID prints as 36 characters of upper-case hexadecimal, with dashes exactly at positions 8, 13, 18 and 23 |
| Uuids.Parse | freewrite/freewrite/ViewModels/ContentViewModel.swift:515-519 | `UUID(uuidString:)` accepts exactly the well-formed texts, in either letter case, and reads each digit's value |
| Uuids.ParseFormat | freewrite/freewrite/ViewModels/ContentViewModel.swift:515-519 | parsing a printed UUID gives the same UUID back |
| Uuids.FormatInjective | freewrite/freewrite/Models/AppDataModels.swift:39 | different UUIDs print differently |
| Timestamps.BeforeIsStrictTotalOrder | freewrite/freewrite/ViewModels/ContentViewModel.swift:559-561 | the date comparison the sort uses is irreflexive, transitive, total and asymmetric |
| Timestamps.Format | freewrite/freewrite/Models/AppDataModels.swift:22-26 | a valid instant prints as 19 characters: dashes at positions 4, 7, 10, 13 and 16, and digits everywhere else |
| Timestamps.Parse | freewrite/freewrite/ViewModels/ContentViewModel.swift:526-533 | the date formatter accepts a text exactly when it has that shape and its fields name a real instant |
| Timestamps.ParseFormat | freewrite/freewrite/ViewModels/ContentViewModel.swift:526-533 | parsing a printed instant gives the same instant back |
| Timestamps.FormatParse | freewrite/freewrite/ViewModels/ContentViewModel.swift:526-533 | every text the date formatter accepts is the printed form of the instant it reads, so the value parsed is the one written |
| Timestamps.PadDigitsValue | freewrite/freewrite/Models/AppDataModels.swift:22-26 | a fixed-width digit field read as a number and zero-padded back to its width is unchanged |
| FilenameCodec.EncodeCharacters | freewrite/freewrite/Models/AppDataModels.swift:39 | a created file name has 67 characters and ends in `.md`; no `.` comes before the extension, and it contains no backslash |
| FilenameCodec.EncodeInjective | freewrite/freewrite/Models/AppDataModels.swift:19-39 | different identities get different file names |
| FilenameCodec.Decode | freewrite/freewrite/ViewModels/ContentViewModel.swift:502-545 | every name the intended loader accepts ends in `.md` and carries a valid instant; with `FilenameCodec.DecodeUntagged`, a name without the tag group gets the default mood Explore |
| FilenameCodec.DecodeEncode | freewrite/freewrite/ViewModels/ContentViewModel.swift:502-545 | the loader reads a created file name back as the id, instant and mood it was created with |
| FilenameCodec.DecodeUntagged | freewrite/freewrite/ViewModels/ContentViewModel.swift:535-537 | a name `[id]-[instant].md` without the optional tag group decodes to its id and instant with the default mood Explore |
| FilenameCodec.DecodableCharacters | freewrite/freewrite/ViewModels/ContentViewModel.swift:505-519 | a name the loader accepts has no `.` before its `.md` |
| FilenameCodec.DecodeAsWritten | freewrite/freewrite/ViewModels/ContentViewModel.swift:506 | the pattern as written accepts only names that contain a backslash |
| FilenameCodec.AsWrittenRejectsEncoded | freewrite/freewrite/ViewModels/ContentViewModel.swift:506-511 | the pattern as written rejects every name `createNew` produces |
| FilenameCodec.AsWrittenExample | freewrite/freewrite/ViewModels/ContentViewModel.swift:506-511 | one concrete created name that the intended pattern accepts and the written pattern rejects |
| FilenameCodec.AiFilename | freewrite/freewrite/ViewModels/ContentViewModel.swift:471-475 | there is no sidecar name exactly when the name contains no `.md`; otherwise it is the text before the first `.md` followed by `-ai.json` |
| FilenameCodec.AiFilenameOfDecodable | freewrite/freewrite/ViewModels/ContentViewModel.swift:471-475 | for a body name the loader accepts, the sidecar is that name with `.md` replaced by `-ai.json` |
| FilenameCodec.AiFilenameOfEncoded | freewrite/freewrite/ViewModels/ContentViewModel.swift:471-475 | the same holds for every created name |
| FilenameCodec.SidecarIsNotABody | freewrite/freewrite/ViewModels/ContentViewModel.swift:499-511 | a sidecar's name is never loaded as an entry |
| FilenameCodec.SidecarInjective | freewrite/freewrite/ViewModels/ContentViewModel.swift:471-475 | two entry bodies never share a sidecar |
| Preview.Collapsed | freewrite/freewrite/ViewModels/ContentViewModel.swift:779-781 | the flattened body has no newline and no whitespace at either end |
| Preview.PreviewOf | freewrite/freewrite/ViewModels/ContentViewModel.swift:779-782 | an empty flattened body gives `(Empty Entry)`; up to 30 characters are kept as they are; more are cut to the first 30 plus `...`; a preview never exceeds 33 characters or holds a newline |
| Preview.EmptyPreviewIff | freewrite/freewrite/ViewModels/ContentViewModel.swift:779-782 | the flattened body is empty exactly when the body is all whitespace |
| Preview.CollapsedNoop | freewrite/freewrite/ViewModels/ContentViewModel.swift:779-781 | flattening a text that is already flat and trimmed leaves it alone |
| Preview.PreviewIdempotent | freewrite/freewrite/ViewModels/ContentViewModel.swift:776-787 | the preview of a preview is that preview |
| Preview.PreviewOfTwoLines | freewrite/freewrite/ViewModels/ContentViewModel.swift:779-782 | `hello`, newline, `world` previews as `hello world` |
| Preview.TruncatedPreview | freewrite/freewrite/ViewModels/ContentViewModel.swift:782 | a flat line longer than 30 characters previews as its first 30 characters plus `...` |
| Preview.PreviewOfLongLine | freewrite/freewrite/ViewModels/ContentViewModel.swift:779-782 | the same for a single trimmed line with no newline |
| Preview.PreviewOfBlank | freewrite/freewrite/ViewModels/ContentViewModel.swift:782 | a blank body previews as `(Empty Entry)` |
| Sections.Serialize | freewrite/freewrite/Models/AppDataModels.swift:54-63 | the coded form keeps each section's title and content, in order, and drops the id |
| Sections.Deserialize | freewrite/freewrite/Models/AppDataModels.swift:54-63 | decoding gives each section a fresh id |
| Sections.RoundTrip | freewrite/freewrite/Models/AppDataModels.swift:54-63 | coding then decoding returns the same sections with fresh ids |
| Sections.SerializeDeserialize | freewrite/freewrite/Models/AppDataModels.swift:54-63 | decoding then coding returns the coded form unchanged |
| Sections.RoundTripIdentityIff | freewrite/freewrite/Models/AppDataModels.swift:54-63 | coding and decoding give the same sections back exactly when the fresh ids are the old ones |
| Markdown.IsHeadingTrim | freewrite/freewrite/ViewModels/ContentViewModel.swift:161-164 | a line is a heading exactly when, trimmed of spaces, it starts with `#` |
| Markdown.HeadingTitle | freewrite/freewrite/ViewModels/ContentViewModel.swift:172-173 | a heading's title has no space at either end |
| Markdown.HeadingTitleOf | freewrite/freewrite/ViewModels/ContentViewModel.swift:161-173 | a line made of spaces, one or more `#`, spaces, a title and spaces is a heading with that title |
| Markdown.Body | freewrite/freewrite/ViewModels/ContentViewModel.swift:166-167 | a section's content is trimmed of whitespace and newlines |
| Markdown.Parse | freewrite/freewrite/ViewModels/ContentViewModel.swift:153-195 | every parsed section has trimmed content, and only the first may lack a title |
| Markdown.ParseEmptyIff | freewrite/freewrite/ViewModels/ContentViewModel.swift:153-195 | a reply parses to no sections exactly when it is blank |
| Markdown.ParseBlank | freewrite/freewrite/ViewModels/ContentViewModel.swift:180-192 | a blank reply parses to no sections |
| Markdown.FallbackUnreachable | freewrite/freewrite/ViewModels/ContentViewModel.swift:189-192 | the no-headings fallback never changes the result: a reply that is not blank always has at least one section before it |
| Markdown.ParseTitles | freewrite/freewrite/ViewModels/ContentViewModel.swift:158-176 | the titles of the parsed sections are the titles of the heading lines, in order |
| Markdown.StripGreeting | freewrite/freewrite/ViewModels/ContentViewModel.swift:269-283 | exactly a leading untitled section opening with one of the two greetings is dropped; no titled section is lost and the shape is kept |
| Markdown.StripGreetingIdempotent | freewrite/freewrite/ViewModels/ContentViewModel.swift:269-283 | on a parse result, stripping twice is stripping once |
| Markdown.LinesOfClipboard | freewrite/freewrite/ViewModels/ContentViewModel.swift:866-874 | the lines of the copied text are the heading line and content lines of each section, in order |
| Markdown.ClipboardRoundTrip | freewrite/freewrite/ViewModels/ContentViewModel.swift:866-874 | parsing the copied text gives back the sections that were copied, when their titles and contents fit the format |
| Disk.Read | freewrite/freewrite/ViewModels/ContentViewModel.swift:648-663 | reading a name gives missing exactly when it is absent, unreadable exactly when it is marked so, and the stored text otherwise |
| Disk.Write | freewrite/freewrite/ViewModels/ContentViewModel.swift:630-644 | a successful write stores the text under the name; no other name changes; a failed write changes nothing |
| Disk.Remove | freewrite/freewrite/ViewModels/ContentViewModel.swift:726-743 | a successful removal deletes the name; no other name changes; a failed one changes nothing |
| Insights.Save | freewrite/freewrite/ViewModels/ContentViewModel.swift:416-431 | saving insights writes only the sidecar; the written text decodes back to the sections; with no sidecar name or a failed write nothing changes |
| Insights.Load | freewrite/freewrite/ViewModels/ContentViewModel.swift:434-461 | with no sidecar name nothing is loaded; a present, readable sidecar that decodes loads as exactly its decoded sections; a missing, unreadable or undecodable sidecar loads as no sections |
| Insights.LoadAfterSave | freewrite/freewrite/ViewModels/ContentViewModel.swift:416-461 | loading after a successful save gives back the saved sections |
| Insights.SaveIsolated | freewrite/freewrite/ViewModels/ContentViewModel.swift:416-431 | saving one entry's insights does not change what another entry loads |
| Insights.Receive | freewrite/freewrite/ViewModels/ContentViewModel.swift:266-293 | the sections shown are the parsed reply with a leading greeting dropped: they keep their shape and all their titles and do not open with a greeting; when an entry is named and sections remain they are saved as its sidecar, and otherwise nothing is written |
| Insights.ReceiveThenLoad | freewrite/freewrite/ViewModels/ContentViewModel.swift:286-293 | after a reply is received for an entry, loading that entry's insights gives the sections shown |
| Ordering.Insert | freewrite/freewrite/ViewModels/ContentViewModel.swift:559-561 | inserting adds the entry once and keeps everything else |
| Ordering.InsertSorted | freewrite/freewrite/ViewModels/ContentViewModel.swift:559-561 | inserting into a newest-first list keeps it newest first |
| Ordering.NewestFirstCons | freewrite/freewrite/ViewModels/ContentViewModel.swift:559-561 | an entry at least as new as the head of a newest-first list may go in front |
| Ordering.SortNewestFirst | freewrite/freewrite/ViewModels/ContentViewModel.swift:559-562 | the sorted list is a permutation of the input and is newest first |
| Ordering.SortKeepsMembers | freewrite/freewrite/ViewModels/ContentViewModel.swift:559-562 | an entry is in the sorted list exactly when it was in the input |
| Store.BodyText | freewrite/freewrite/ViewModels/ContentViewModel.swift:648-664 | the editor shows the stored body, or the literal `\n\n` placeholder when the body is missing or unreadable |
| Store.Select | freewrite/freewrite/ViewModels/ContentViewModel.swift:604-614 | an unknown entry changes nothing; otherwise the entry is selected with its mood, and its body and insights are loaded; list and directory are untouched and a valid selection stays valid |
| Store.SelectIdempotent | freewrite/freewrite/ViewModels/ContentViewModel.swift:604-614 | selecting the same entry twice is selecting it once |
| Store.UpdatePreview | freewrite/freewrite/ViewModels/ContentViewModel.swift:776-788 | only the first entry with the id gets the new preview; an unknown id changes nothing |
| Store.UpdatePreviewKeeps | freewrite/freewrite/ViewModels/ContentViewModel.swift:776-788 | a preview update changes no id, name, mood or instant |
| Store.SameKeysKeep | freewrite/freewrite/ViewModels/ContentViewModel.swift:776-788 | lists that differ only in previews and flags have the same ids and lookups and the same invariants |
| Store.SaveTarget | freewrite/freewrite/ViewModels/ContentViewModel.swift:619-623 | there is a save target exactly when the selection names a listed entry, and it is that entry |
| Store.Save | freewrite/freewrite/ViewModels/ContentViewModel.swift:618-645 | without a target nothing changes; otherwise the editor takes the text; a successful write stores it under the selected entry's name and refreshes only that preview; a failed write changes nothing else |
| Store.SaveValid | freewrite/freewrite/ViewModels/ContentViewModel.swift:618-645 | saving keeps the store invariant |
| Store.Create | freewrite/freewrite/ViewModels/ContentViewModel.swift:676-713 | the editor always gets the initial text; after a successful write the new entry is in front of the unchanged list with the given id, mood and instant, a decodable name and the preview of its text, and it is selected with the insights cleared; a failed write changes nothing else |
| Store.CreateValid | freewrite/freewrite/ViewModels/ContentViewModel.swift:676-713 | creating an entry no older than any listed one keeps the store invariant |
| Store.CreateUnique | freewrite/freewrite/ViewModels/ContentViewModel.swift:680-699 | a fresh id keeps ids unique |
| Store.RemoveFiles | freewrite/freewrite/ViewModels/ContentViewModel.swift:724-745 | deleting removes the body, removes the sidecar when that removal succeeds, and touches no other file |
| Store.DeleteAsWritten | freewrite/freewrite/ViewModels/ContentViewModel.swift:717-773 | an unlisted entry changes nothing; otherwise its first occurrence leaves the list; a failed body removal leaves the directory alone, and otherwise the body and its sidecar are removed; deleting an unselected entry keeps the selection, mood, text and insights; deleting the selected one selects the first remaining entry with its body and insights, or, with none left, clears selection, mood and text on the main path but on the catch path clears only the insights and keeps the stale selection |
| Store.DeleteAsWrittenLeavesStaleSelection | freewrite/freewrite/ViewModels/ContentViewModel.swift:764-771 | deleting the only, selected entry when its body cannot be removed leaves the selection naming an entry that is no longer listed |
| Store.Delete | freewrite/freewrite/ViewModels/ContentViewModel.swift:717-773 | as above, except that with none left the selection, mood and text are always cleared, so the selection never names a deleted entry; the insights are kept on the main path and cleared on the catch path |
| Store.DeleteFiles | freewrite/freewrite/ViewModels/ContentViewModel.swift:724-745 | after a delete the body is gone unless its removal failed, the sidecar is gone when both removals succeed, and no other file changes |
| Store.DeleteRemovesExactlyOne | freewrite/freewrite/ViewModels/ContentViewModel.swift:719-748 | with unique ids, the list shrinks by one, the id is gone, ids stay unique and every other id stays listed |
| Store.DeleteTwice | freewrite/freewrite/ViewModels/ContentViewModel.swift:719-722 | deleting an entry again does nothing |
| Store.RemoveAtKeeps | freewrite/freewrite/ViewModels/ContentViewModel.swift:748 | taking one entry out keeps the rest named, in order and listed, and keeps ids unique |
| Store.DeleteValid | freewrite/freewrite/ViewModels/ContentViewModel.swift:717-773 | deleting keeps the store invariant |
| Store.ToggleFavorite | freewrite/freewrite/ViewModels/ContentViewModel.swift:855-864 | only the first entry with the id flips its favourite flag; nothing else changes |
| Store.ToggleTwice | freewrite/freewrite/ViewModels/ContentViewModel.swift:855-860 | toggling twice restores the state |
| Store.ToggleValid | freewrite/freewrite/ViewModels/ContentViewModel.swift:855-864 | toggling keeps the store invariant |
| Store.Decoded | freewrite/freewrite/ViewModels/ContentViewModel.swift:499-557 | the loaded entries come from listed names that decode, and every listed name that decodes yields one |
| Store.Load | freewrite/freewrite/ViewModels/ContentViewModel.swift:495-601 | a failed listing empties the list and the selection; otherwise the list is the entries decoded by the intended loader, newest first; with none the selection is cleared, and the insights stay; with a missing or stale selection the first entry is selected with its body and its stored insights; a valid selection keeps its mood and insights and has its body read again |
| Store.LoadEntries | freewrite/freewrite/ViewModels/ContentViewModel.swift:502-564 | every loaded entry comes from a listed name, shows the loading placeholder and is not a favourite, and every decodable name is loaded |
| Store.LoadValid | freewrite/freewrite/ViewModels/ContentViewModel.swift:495-601 | whatever the state before, a load establishes the store invariant |
| Store.SelectValid | freewrite/freewrite/ViewModels/ContentViewModel.swift:604-614 | selecting keeps the store invariant |
| Hydration.HydratedPreview | freewrite/freewrite/ViewModels/ContentViewModel.swift:797-820 | the preview a pass computes is the body's preview, `(File Missing)` for a missing body, or `(Error)` for an unreadable one |
| Hydration.Hydrate | freewrite/freewrite/ViewModels/ContentViewModel.swift:792-821 | the pass returns the list with every preview recomputed from the directory and no other field changed |
| Hydration.Commit | freewrite/freewrite/ViewModels/ContentViewModel.swift:792-826 | the intended commit gives each listed entry the preview the pass computed for its id and changes nothing else, favourite flags included |
| Hydration.CommitValid | freewrite/freewrite/ViewModels/ContentViewModel.swift:792-826 | the intended commit keeps the store invariant and unique ids |
| Hydration.CommitAgreesWhenUndisturbed | freewrite/freewrite/ViewModels/ContentViewModel.swift:794-826 | when nothing changed the list during the pass, the two commits agree |
| Hydration.AsWrittenResurrectsDeleted | freewrite/freewrite/ViewModels/ContentViewModel.swift:824-826 | a delete made during the pass is undone by the commit as written, although the body is gone, and kept by the intended commit |
| Hydration.SavedPreviewIsHydrated | freewrite/freewrite/ViewModels/ContentViewModel.swift:630-635 | the preview a successful save sets is the one a later pass computes |
| Hydration.CreatedPreviewIsHydrated | freewrite/freewrite/ViewModels/ContentViewModel.swift:694-703 | the preview a successful create sets is the one a later pass computes |
| Stats.WordCount | freewrite/freewrite/ViewModels/ContentViewModel.swift:894-899 | the word count is zero exactly when the text is all whitespace |
| Stats.WordCountOfWords | freewrite/freewrite/ViewModels/ContentViewModel.swift:894-899 | non-empty words joined by single spaces count one each |
| Stats.WordCountAdds | freewrite/freewrite/ViewModels/ContentViewModel.swift:894-899 | the words on either side of a whitespace character add up |
| Stats.Tomorrow | freewrite/freewrite/ViewModels/ContentViewModel.swift:928 | the next calendar date is a valid date and comes later |
| Stats.DayNumberTomorrow | freewrite/freewrite/ViewModels/ContentViewModel.swift:928-929 | consecutive dates have consecutive day numbers, so "the day before" is a subtraction of one |
| Stats.EntryDays | freewrite/freewrite/ViewModels/ContentViewModel.swift:907-909 | each entry contributes the day its creation instant falls on |
| Stats.DistinctDescending | freewrite/freewrite/ViewModels/ContentViewModel.swift:917 | the sorted days are strictly descending and are exactly the entry days |
| Stats.Anchor | freewrite/freewrite/ViewModels/ContentViewModel.swift:919-956 | the streak starts exactly when the latest entry day is today or yesterday; it starts on that day, and on yesterday only when today has no entry |
| Stats.CountBack | freewrite/freewrite/ViewModels/ContentViewModel.swift:924-935 | counting back from the first day gives a run of consecutive entry days, and the day before the run has no entry |
| Stats.CurrentStreak | freewrite/freewrite/ViewModels/ContentViewModel.swift:915-960 | the streak is zero exactly when there is no starting day; otherwise every day of the run has an entry and the day before it does not |
| Stats.StreakDetermined | freewrite/freewrite/ViewModels/ContentViewModel.swift:915-960 | that description fixes the streak: two such run lengths are equal |
| Text.TrimSlice | freewrite/freewrite/ViewModels/ContentViewModel.swift:219 | `trimmingCharacters(in:)` keeps the stretch that starts after the leading run of the class, with only class characters dropped on either side |
| Requests.Trimmed | freewrite/freewrite/ViewModels/ContentViewModel.swift:219 | the trimmed text is a stretch of the text with only whitespace before and after it, and no whitespace at either of its own ends |
| Requests.StartFeedback | freewrite/freewrite/ViewModels/ContentViewModel.swift:199-226 | insights on screen are always cleared; the text goes out exactly when a key exists and the trimmed text has more than 25 characters; no key leaves the key error; a short text leaves the short-text error; in both cases the flag is lowered |
| Requests.FeedbackIgnoresFlag | freewrite/freewrite/ViewModels/ContentViewModel.swift:199-203 | a feedback request starts the same way whether or not one is in flight |
| Requests.FeedbackResend | freewrite/freewrite/ViewModels/ContentViewModel.swift:213-221 | sending the text that was sent passes the gate again unchanged |
| Requests.Snippet | freewrite/freewrite/ViewModels/ContentViewModel.swift:341-350 | the snippet is the whole text up to 500 characters, otherwise its last 500 |
| Requests.StartQuestion | freewrite/freewrite/ViewModels/ContentViewModel.swift:317-367 | a request in flight makes it do nothing; no key restores the earlier error; the snippet goes out exactly when it has more than 10 characters, and is a suffix of the trimmed text of at most 500 characters; the insights on screen never change |
| Requests.SecondQuestionIgnored | freewrite/freewrite/ViewModels/ContentViewModel.swift:317-320 | after either request has started, a question request is ignored |
| Requests.QuestionSeesOnlyTheEnd | freewrite/freewrite/ViewModels/ContentViewModel.swift:341-362 | two long texts with the same last 500 trimmed characters start the same question request |
| Weekdays.RotateOnce | freewrite/freewrite/Views/Components/CustomCalendarView.swift:116-119 | one rotation step keeps the number of symbols |
| Weekdays.RotateIndex | freewrite/freewrite/Views/Components/CustomCalendarView.swift:114-121 | after k steps the symbol at position i is the one k places further on, counting round the week |
| Weekdays.RotateFullCircle | freewrite/freewrite/Views/Components/CustomCalendarView.swift:114-121 | as many steps as there are symbols give back the original order |
| Weekdays.Initial | freewrite/freewrite/Views/Components/CustomCalendarView.swift:122 | a heading is the symbol's first character in upper case, or empty for an empty symbol |
| Weekdays.CapitalizedFirstLetters | freewrite/freewrite/Views/Components/CustomCalendarView.swift:110-123 | there is one heading per symbol; with a first weekday of 1 or less they follow the symbols' order; otherwise heading i belongs to symbol (i + firstWeekday - 1) mod the week's length |

## Left out

- The user interface is not modelled. That covers sheets, `activeSheet`, `entryJustCreated` and `displayedMonth`. `createNewEntry` only clears the insights and opens a sheet.
- Timers are not modelled, including the three-second error dismissal.
- The camera and photos are not modelled.
- `openChatGPT` and the URL handling are not modelled.
- The network exchange of both AI requests is not modelled: the request bodies, HTTP statuses, API errors and decoding errors. Only the checks made before sending, and the handling of a successful feedback reply (`Insights.Receive`), are modelled.
- Appending the guiding question to the text and saving it is not modelled. It is a save of a longer text, which `Store.Save` covers.
- Reading the API key from the bundle is a boolean parameter.
- `DateFormatter`, time zones and `Calendar` are not modelled. Instants are calendar fields. A day is a proleptic Gregorian day number. The `MMM d` display date is omitted.
- `groupedEntriesByDay`, `totalEntries`, `generateDaysForDisplayedMonth` and `changeMonth` are not modelled, because they are calendar layout.
- Work that runs asynchronously is modelled as sequential steps: `Task`, `MainActor.run` and `DispatchQueue.main.async`. The one interleaving that matters is stated as a finding below.
- Favourites are not persisted: the source has only a TODO there.
- Writing to the clipboard is not modelled; only the text that would be copied is.
- Ordering.SortNewestFirst: it is stable, while Swift's `sorted` is not. Entries created in the same second may come out in a different order in the app.
- Store.Load: it decodes names with the intended `\.md` ending, the corrected member of the ContentViewModel.swift:506 finding. With the pattern as written the app loads none of its own files (`FilenameCodec.AsWrittenRejectsEncoded`), so `Store.Load`, `Store.Decoded`, `Store.LoadEntries` and `Entries.FromFilename` model the loader with that fix applied.
- FilenameCodec.Decode: it is an anchored parse of the pattern's capture groups. `firstMatch` would also find a match inside a longer name that has extra text around it; such names are not modelled.
- The `pathExtension == "md"` filter is subsumed by the `.md` ending the decoder requires.
- Characters are Unicode code points. Swift counts grapheme clusters for the 25-, 10-, 500- and 30-character limits and for `prefix(1)`.
- Case mapping covers ASCII letters only. This affects `lowercased()` in the greeting check and `capitalized` in the weekday headings.
- The in-memory sections of the store carry no ids. Each `MarkdownSection` gets a fresh UUID when created or decoded; `Sections` models that id, while `Store` keeps only the coded form.
- The JSON coder is a parameter. `Disk.Faithful` states the round trip that the saving lemmas rely on.
- A file name whose tag is not `V`, `E` or `P` is skipped as a whole, because the pattern admits only those three tags. The default mood applies only when the tag group is absent. The `default:` branch of the mood switch (ContentViewModel.swift:543) logs that an unknown initial falls back to Explore, but the `[VEP]` class of the pattern at ContentViewModel.swift:506 means that branch never runs; the model follows the pattern.

## Findings

| source | as written | input that shows it | evidently intended | confidence | as-written member | corrected member |
|---|---|---|---|---|---|---|
| freewrite/freewrite/ViewModels/ContentViewModel.swift:506 | the Swift literal `\\\\.md` gives the regex `\\.md`, which matches a backslash, any character, then `md` | every name `createNew` builds, such as `[00000000-0000-0000-0000-000000000000]-[2025-05-04-09-30-00]-[V].md`, is not matched, so no entry is ever loaded | the Swift literal `\\.md`, giving the regex `\.md`, a literal `.md` ending | not executed | FilenameCodec.DecodeAsWritten, FilenameCodec.AsWrittenRejectsEncoded, FilenameCodec.AsWrittenExample | FilenameCodec.Decode, FilenameCodec.DecodeEncode |
| freewrite/freewrite/ViewModels/ContentViewModel.swift:824-826 | `updateAllPreviews` replaces the whole entry list with the copy it took before its pass | an entry deleted while the pass runs comes back in the list although its body is gone | write back only the previews, by id, into the current list | not executed | Hydration.CommitAsWritten, Hydration.AsWrittenResurrectsDeleted | Hydration.Commit, Hydration.CommitValid |
| freewrite/freewrite/ViewModels/ContentViewModel.swift:764-771 | when the body cannot be removed, the catch path removes the entry but, with no entries left, leaves `selectedEntryId` naming it | delete the only entry while it is selected and its file cannot be removed: the list is empty and the selection names the deleted id | clear the selection as the main path does | not executed | Store.DeleteAsWritten, Store.DeleteAsWrittenLeavesStaleSelection | Store.Delete, Store.DeleteValid |

=== FILE: disk.dfy ===
/** The `Freewrite` documents directory as the store sees it: a flat map
    from file name to text. Whether a call into `FileManager` or a read
    succeeds is not decided here; those outcomes come in as parameters. */
module Disk {
  import opened Wrappers
  import opened Sections

  type Files = map<string, string>

  /** What reading a file yields: nothing there, a file that cannot be read
      (a UTF-8 or permission failure), or its text. */
  datatype ReadOutcome = Missing | Unreadable | Contents(text: string)

  /** `JSONEncoder` / `JSONDecoder` for `[MarkdownSection]`, taken as given. */
  datatype JsonCodec = JsonCodec(encode: seq<Section> -> string, decode: string -> Option<seq<Section>>)

  /** What the store cannot decide about its directory: which present files
      fail to read, and how sections are coded. */
  datatype Env = Env(unreadable: set<string>, json: JsonCodec)

  /** Decoding what was encoded gives the sections back. */
  ghost predicate Faithful(c: JsonCodec) {
    forall ss: seq<Section> :: c.decode(c.encode(ss)) == Some(ss)
  }

  /** `fileExists` followed by `String(contentsOf:)` or `Data(contentsOf:)`. */
  function Read(fs: Files, env: Env, name: string): (r: ReadOutcome)
    ensures r.Missing? <==> name !in fs
    ensures r.Unreadable? <==> name in fs && name in env.unreadable
    ensures r.Contents? ==> name in fs && r.text == fs[name]
  {
    if name !in fs then Missing
    else if name in env.unreadable then Unreadable
    else Contents(fs[name])
  }

  /** A write that may fail: on success the one name holds the text and
      every other file is as it was; on failure nothing changes. */
  function Write(fs: Files, name: string, text: string, ok: bool): (r: Files)
    ensures ok ==> name in r && r[name] == text
    ensures forall k :: k != name ==> (k in r <==> k in fs) && (k in r ==> r[k] == fs[k])
    ensures !ok ==> r == fs
  {
    if ok then fs[name := text] else fs
  }

  /** `removeItem` guarded by `fileExists`, which may fail: on success the
      name is gone and every other file is as it was. */
  function Remove(fs: Files, name: string, ok: bool): (r: Files)
    ensures ok ==> name !in r
    ensures forall k :: k != name ==> (k in r <==> k in fs) && (k in r ==> r[k] == fs[k])
    ensures !ok ==> r == fs
  {
    if ok then fs - {name} else fs
  }

  /** Writing a file and reading it back gives the text written, unless
      the file is one that cannot be read. */
  lemma ReadAfterWrite(fs: Files, env: Env, name: string, text: string)
    requires name !in env.unreadable
    ensures Read(Write(fs, name, text, true), env, name) == Contents(text)
  {
  }
}

=== FILE: entries.dfy ===
/** A journal entry as the store keeps it in memory (`HumanEntry`): its
    identity, the name of its Markdown file, the one-line preview the list
    shows, and the favourite flag. */
module Entries {
  import opened Wrappers
  import Uuids
  import Timestamps
  import opened Moods
  import FilenameCodec
  import Preview

  datatype Entry = Entry(
    id: Uuids.Uuid,
    filename: string,
    previewText: string,
    mood: Mood,
    isFavorite: bool,
    created: Timestamps.Timestamp)

  function IdentityOf(e: Entry): FilenameCodec.Identity {
    FilenameCodec.Identity(e.id, e.created, e.mood)
  }

  /** `createNew`: a fresh entry whose filename carries its id, creation
      instant and mood. The id and the clock reading are parameters. */
  function CreateNew(mood: Mood, id: Uuids.Uuid, now: Timestamps.Timestamp): (e: Entry)
    requires Timestamps.Valid(now)
    ensures e.id == id && e.mood == mood && e.created == now
    ensures e.previewText == [] && !e.isFavorite
    ensures FilenameCodec.Decode(e.filename) == Some(IdentityOf(e))
  {
    var x := FilenameCodec.Identity(id, now, mood);
    FilenameCodec.DecodeEncode(x);
    Entry(id, FilenameCodec.Encode(x), [], mood, false, now)
  }

  /** The entry the loader builds for a directory listing name: present
      exactly when the name decodes, showing the loading placeholder. */
  function FromFilename(name: string): (r: Option<Entry>)
    ensures r.Some? <==> FilenameCodec.Decode(name).Some?
    ensures r.Some? ==> && r.value.filename == name
                        && FilenameCodec.Decode(name) == Some(IdentityOf(r.value))
                        && r.value.previewText == Preview.Loading
                        && !r.value.isFavorite
  {
    match FilenameCodec.Decode(name)
    case None => None
    case Some(x) => Some(Entry(x.id, name, Preview.Loading, x.mood, false, x.created))
  }

  /** The custom `==` of `HumanEntry`: two entries are the same entry when
      their ids are equal, whatever their other fields hold. */
  predicate SameEntry(a: Entry, b: Entry) {
    a.id == b.id
  }

  /** Id equality is an equivalence that ignores every field but the id. */
  lemma SameEntryIgnoresFields(a: Entry, b: Entry, p: string, f: bool)
    ensures SameEntry(a, a)
    ensures SameEntry(a, b) <==> SameEntry(b, a)
    ensures SameEntry(a, b) <==> SameEntry(a.(previewText := p, isFavorite := f), b)
    ensures SameEntry(a, b) <==> IdentityOf(a).id == IdentityOf(b).id
  {
  }

  /** `firstIndex(where: { $0.id == id })`. */
  function IndexOf(es: seq<Entry>, id: Uuids.Uuid): (r: Option<nat>)
    ensures r.Some? ==> r.value < |es| && es[r.value].id == id
    ensures r.Some? ==> forall j :: 0 <= j < r.value ==> es[j].id != id
    ensures r.None? <==> forall j :: 0 <= j < |es| ==> es[j].id != id
  {
    if es == [] then None
    else if es[0].id == id then Some(0)
    else match IndexOf(es[1..], id)
      case None => None
      case Some(i) => Some(i + 1)
  }

  predicate Contains(es: seq<Entry>, id: Uuids.Uuid) {
    exists j :: 0 <= j < |es| && es[j].id == id
  }

  function Ids(es: seq<Entry>): (r: seq<Uuids.Uuid>)
    ensures |r| == |es| && forall j :: 0 <= j < |es| ==> r[j] == es[j].id
  {
    seq(|es|, j requires 0 <= j < |es| => es[j].id)
  }
}

=== FILE: filename_codec.dfy ===
/** The filename codec: an entry's identity (id, creation instant, mood) is
    stored in the name of its Markdown file,
      `[<UUID>]-[<yyyy-MM-dd-HH-mm-ss>]-[<V|E|P>].md`,
    and its AI-insight sidecar is found by name from the body file's name. */
module FilenameCodec {
  import opened Wrappers
  import opened Text
  import Uuids
  import Timestamps
  import opened Moods

  datatype Identity = Identity(id: Uuids.Uuid, created: Timestamps.Timestamp, mood: Mood)

  /** The file name `createNew` builds. */
  function Encode(x: Identity): (name: string)
    requires Timestamps.Valid(x.created)
  {
    "[" + Uuids.Format(x.id) + "]-[" + Timestamps.Format(x.created) + "]-[" + [Initial(x.mood)] + "].md"
  }

  // ---------------------------------------------------------------------------
  // Decoding

  /** How a name must end after the closing bracket. `DotMd` is `\.md`, what
      the pattern is meant to say; `BackslashAnyMd` is what the doubly escaped
      literal `\\\\.md` compiles to: a backslash, any character, then `md`. */
  datatype Ending = DotMd | BackslashAnyMd

  function Width(e: Ending): nat {
    match e
    case DotMd => 3
    case BackslashAnyMd => 4
  }

  predicate HasEnding(n: string, e: Ending) {
    match e
    case DotMd => EndsWith(n, ".md")
    case BackslashAnyMd => |n| >= 4 && n[|n| - 4] == '\\' && !IsNewline(n[|n| - 3]) && n[|n| - 2..] == "md"
  }

  /** `[id]-[timestamp]-[tag]<ending>`, the tag one of `V`, `E`, `P`. */
  predicate TaggedLayout(n: string, e: Ending) {
    var w := Width(e);
    && |n| >= 28 + w && n[0] == '['
    && n[|n| - w - 27..|n| - w - 24] == "]-["
    && Timestamps.HasShape(n[|n| - w - 24..|n| - w - 5])
    && n[|n| - w - 5..|n| - w - 2] == "]-["
    && FromInitial(n[|n| - w - 2]).Some?
    && n[|n| - w - 1] == ']'
    && HasEnding(n, e)
  }

  /** `[id]-[timestamp]<ending>`: the optional tag group absent. */
  predicate PlainLayout(n: string, e: Ending) {
    var w := Width(e);
    && |n| >= 24 + w && n[0] == '['
    && n[|n| - w - 23..|n| - w - 20] == "]-["
    && Timestamps.HasShape(n[|n| - w - 20..|n| - w - 1])
    && n[|n| - w - 1] == ']'
    && HasEnding(n, e)
  }

  /** The capture groups: id text, timestamp text and mood (defaulted when
      the optional tag group did not take part). The tagged layout is tried
      first, as the lazy id group prefers the shorter id. */
  function Groups(n: string, e: Ending): Option<(string, string, Mood)> {
    var w := Width(e);
    if TaggedLayout(n, e) then
      Some((n[1..|n| - w - 27], n[|n| - w - 24..|n| - w - 5], FromInitial(n[|n| - w - 2]).value))
    else if PlainLayout(n, e) then
      Some((n[1..|n| - w - 23], n[|n| - w - 20..|n| - w - 1], DefaultMood))
    else None
  }

  function DecodeWith(n: string, e: Ending): Option<Identity> {
    match Groups(n, e)
    case None => None
    case Some((idText, dateText, mood)) =>
      match (Uuids.Parse(idText), Timestamps.Parse(dateText))
      case (Some(id), Some(created)) => Some(Identity(id, created, mood))
      case _ => None
  }

  /** The loader's decoding of one file name: the structure its capture
      groups describe, then `UUID(uuidString:)` and the date formatter. A
      name failing any step is skipped. */
  function Decode(n: string): (r: Option<Identity>)
    ensures r.Some? ==> EndsWith(n, ".md") && Timestamps.Valid(r.value.created)
  {
    DecodeWith(n, DotMd)
  }

  /** The loader as the pattern literal is actually written. */
  function DecodeAsWritten(n: string): (r: Option<Identity>)
    ensures r.Some? ==> '\\' in n
  {
    var r := DecodeWith(n, BackslashAnyMd);
    assert r.Some? ==> n[|n| - 4] == '\\';
    r
  }

  // ---------------------------------------------------------------------------
  // Facts about encoded names

  /** No character of an encoded name before its extension is `.` or `\`. */
  lemma EncodeCharacters(x: Identity)
    requires Timestamps.Valid(x.created)
    ensures var n := Encode(x);
      && |n| == 67 && EndsWith(n, ".md")
      && (forall j :: 0 <= j < |n| - 3 ==> n[j] != '.')
      && '\\' !in n
  {
    var n := Encode(x);
    var u := Uuids.Format(x.id);
    var t := Timestamps.Format(x.created);
    assert n == "[" + u + "]-[" + t + "]-[" + [Initial(x.mood)] + "].md";
    forall j | 1 <= j < 37 ensures n[j] == u[j - 1] { }
    forall j | 40 <= j < 59 ensures n[j] == t[j - 40] { }
  }

  /** Encoding then decoding gives the identity back. */
  lemma DecodeEncode(x: Identity)
    requires Timestamps.Valid(x.created)
    ensures Decode(Encode(x)) == Some(x)
  {
    var n := Encode(x);
    var u := Uuids.Format(x.id);
    var t := Timestamps.Format(x.created);
    assert n == "[" + u + "]-[" + t + "]-[" + [Initial(x.mood)] + "].md";
    assert |n| == 67;
    assert n[1..37] == u;
    assert n[37..40] == "]-[";
    assert n[40..59] == t;
    assert n[59..62] == "]-[";
    assert n[62] == Initial(x.mood);
    assert n[63] == ']';
    assert n[64..] == ".md";
    InitialRoundTrip(x.mood, x.mood);
    assert TaggedLayout(n, DotMd);
    Uuids.ParseFormat(x.id);
    Timestamps.ParseFormat(x.created);
  }

  /** A name without the optional tag group decodes with the default mood,
      Explore. */
  lemma DecodeUntagged(x: Identity)
    requires Timestamps.Valid(x.created)
    ensures Decode("[" + Uuids.Format(x.id) + "]-[" + Timestamps.Format(x.created) + "].md")
      == Some(x.(mood := Explore))
  {
    var u := Uuids.Format(x.id);
    var t := Timestamps.Format(x.created);
    var n := "[" + u + "]-[" + t + "].md";
    assert |n| == 63;
    assert n[1..37] == u;
    assert n[37..40] == "]-[";
    assert n[40..59] == t;
    assert n[59] == ']';
    assert n[60..] == ".md";
    assert n[58] == t[18] && Timestamps.IsDigit(t[18]);
    assert !TaggedLayout(n, DotMd);
    assert PlainLayout(n, DotMd);
    Uuids.ParseFormat(x.id);
    Timestamps.ParseFormat(x.created);
  }

  /** Distinct identities get distinct file names. */
  lemma EncodeInjective(x: Identity, y: Identity)
    requires Timestamps.Valid(x.created) && Timestamps.Valid(y.created)
    requires Encode(x) == Encode(y)
    ensures x == y
  {
    DecodeEncode(x);
    DecodeEncode(y);
  }

  /** The pattern as written accepts no name `createNew` produces. */
  lemma AsWrittenRejectsEncoded(x: Identity)
    requires Timestamps.Valid(x.created)
    ensures DecodeAsWritten(Encode(x)) == None
  {
    EncodeCharacters(x);
  }

  /** A concrete identity whose file name the pattern as written skips and
      the intended pattern loads. */
  lemma AsWrittenExample()
    ensures var x := Identity(seq(32, _ => 0), Timestamps.Timestamp(2025, 5, 4, 9, 30, 0), Vent);
      && Timestamps.Valid(x.created)
      && Decode(Encode(x)) == Some(x)
      && DecodeAsWritten(Encode(x)) == None
  {
    var x := Identity(seq(32, _ => 0), Timestamps.Timestamp(2025, 5, 4, 9, 30, 0), Vent);
    DecodeEncode(x);
    AsWrittenRejectsEncoded(x);
  }

  /** A decodable name has no `.` before its final `.md`. */
  lemma DecodableCharacters(n: string)
    requires Decode(n).Some?
    ensures forall j :: 0 <= j < |n| - 3 ==> n[j] != '.'
  {
    if TaggedLayout(n, DotMd) {
      TaggedCharacters(n);
    } else {
      PlainCharacters(n);
    }
  }

  lemma UuidTextNoDot(s: string)
    requires Uuids.WellFormed(s)
    ensures '.' !in s
  {
    forall i | 0 <= i < |s| ensures s[i] != '.' {
      if !Uuids.IsDashPosition(i) {
        assert Uuids.HexValue(s[i]).Some?;
      }
    }
  }

  lemma TimestampTextNoDot(s: string)
    requires Timestamps.HasShape(s)
    ensures '.' !in s
  {
    forall i | 0 <= i < |s| ensures s[i] != '.' {
      if !Timestamps.IsDashPosition(i) {
        assert Timestamps.IsDigit(s[i]);
      }
    }
  }

  lemma TaggedCharacters(n: string)
    requires TaggedLayout(n, DotMd)
    requires Uuids.WellFormed(n[1..|n| - 30])
    ensures forall j :: 0 <= j < |n| - 3 ==> n[j] != '.'
  {
    var m := |n| - 30;
    var idText := n[1..m];
    var dateText := n[m + 3..m + 22];
    UuidTextNoDot(idText);
    TimestampTextNoDot(dateText);
    forall j | 0 <= j < |n| - 3 ensures n[j] != '.' {
      if 1 <= j < m {
        assert idText[j - 1] == n[j];
      } else if m + 3 <= j < m + 22 {
        assert dateText[j - (m + 3)] == n[j];
      } else if m <= j < m + 3 {
        assert n[m..m + 3][j - m] == n[j];
      } else if m + 22 <= j < m + 25 {
        assert n[m + 22..m + 25][j - (m + 22)] == n[j];
      }
    }
  }

  lemma PlainCharacters(n: string)
    requires PlainLayout(n, DotMd)
    requires Uuids.WellFormed(n[1..|n| - 26])
    ensures forall j :: 0 <= j < |n| - 3 ==> n[j] != '.'
  {
    var m := |n| - 26;
    var idText := n[1..m];
    var dateText := n[m + 3..m + 22];
    UuidTextNoDot(idText);
    TimestampTextNoDot(dateText);
    forall j | 0 <= j < |n| - 3 ensures n[j] != '.' {
      if 1 <= j < m {
        assert idText[j - 1] == n[j];
      } else if m + 3 <= j < m + 22 {
        assert dateText[j - (m + 3)] == n[j];
      } else if m <= j < m + 3 {
        assert n[m..m + 3][j - m] == n[j];
      }
    }
  }

  // ---------------------------------------------------------------------------
  // The insight sidecar name

  const SidecarSuffix: string := "-ai.json"

  /** `aiFilename(from:)`: the text before the first `.md`, then `-ai.json`;
      nothing when the name contains no `.md`. */
  function AiFilename(n: string): (r: Option<string>)
    ensures r.None? <==> forall j :: 0 <= j <= |n| ==> !OccursAt(n, ".md", j)
    ensures r.Some? ==> var stem := |r.value| - |SidecarSuffix|;
      && stem >= 0 && EndsWith(r.value, SidecarSuffix)
      && OccursAt(n, ".md", stem) && r.value[..stem] == n[..stem]
      && forall j :: 0 <= j < stem ==> !OccursAt(n, ".md", j)
  {
    match FindFirst(n, ".md")
    case None => None
    case Some(i) =>
      var r := n[..i] + SidecarSuffix;
      assert r[..i] == n[..i];
      assert r[i..] == SidecarSuffix;
      Some(r)
  }

  /** For every name the loader accepts, the sidecar is the name with `.md`
      replaced by `-ai.json`. */
  lemma AiFilenameOfDecodable(n: string)
    requires Decode(n).Some?
    ensures AiFilename(n) == Some(n[..|n| - 3] + SidecarSuffix)
  {
    DecodableCharacters(n);
    assert OccursAt(n, ".md", |n| - 3);
    var r := AiFilename(n).value;
    var stem := |r| - |SidecarSuffix|;
    assert n[stem..stem + 3][0] == n[stem];
    assert stem == |n| - 3;
    assert r == r[..stem] + r[stem..];
  }

  /** `createNew`'s name with `.md` replaced by `-ai.json`. */
  lemma AiFilenameOfEncoded(x: Identity)
    requires Timestamps.Valid(x.created)
    ensures var n := Encode(x); AiFilename(n) == Some(n[..|n| - 3] + SidecarSuffix)
  {
    DecodeEncode(x);
    AiFilenameOfDecodable(Encode(x));
  }

  /** A sidecar name is never a loadable body name. */
  lemma SidecarIsNotABody(n: string)
    requires AiFilename(n).Some?
    ensures Decode(AiFilename(n).value).None?
  {
    var s := AiFilename(n).value;
    assert s[|s| - 1] == 'n';
  }

  /** Distinct loadable body names have distinct sidecars. */
  lemma SidecarInjective(a: string, b: string)
    requires Decode(a).Some? && Decode(b).Some?
    requires AiFilename(a) == AiFilename(b)
    ensures a == b
  {
    AiFilenameOfDecodable(a);
    AiFilenameOfDecodable(b);
    var sa := a[..|a| - 3];
    var sb := b[..|b| - 3];
    assert sa + SidecarSuffix == sb + SidecarSuffix;
    assert sa == (sa + SidecarSuffix)[..|sa|];
    assert |sa| == |sb|;
    assert sb == (sb + SidecarSuffix)[..|sb|];
    assert a == sa + ".md";
    assert b == sb + ".md";
  }
}

=== FILE: hydration.dfy ===
/** `updateAllPreviews`: after a load, every entry's preview is recomputed
    from its body. The source runs the pass over a copy of the list and
    then replaces the whole list with the copy; here the pass is one
    sequential loop, and the replacement is a separate commit applied to
    whatever the state is by then. */
module Hydration {
  import opened Wrappers
  import Uuids
  import opened Entries
  import Preview
  import opened Disk
  import opened Store
  import Moods
  import Timestamps

  /** The preview an entry gets from the directory: that of its body's
      text, or a marker when the body is missing or cannot be read. */
  function HydratedPreview(fs: Files, env: Env, e: Entry): (p: string)
    ensures e.filename !in fs ==> p == Preview.FileMissing
    ensures e.filename in fs && e.filename in env.unreadable ==> p == Preview.ReadError
    ensures e.filename in fs && e.filename !in env.unreadable ==> p == Preview.PreviewOf(fs[e.filename])
  {
    match Read(fs, env, e.filename)
    case Contents(text) => Preview.PreviewOf(text)
    case Missing => Preview.FileMissing
    case Unreadable => Preview.ReadError
  }

  /** `pass` is `es` with every preview recomputed from the directory. */
  predicate IsPass(es: seq<Entry>, fs: Files, env: Env, pass: seq<Entry>) {
    && |pass| == |es|
    && forall i :: 0 <= i < |es| ==> pass[i] == es[i].(previewText := HydratedPreview(fs, env, es[i]))
  }

  /** The loop of `updateAllPreviews` over its copy of the list. */
  method Hydrate(es: seq<Entry>, fs: Files, env: Env) returns (updated: seq<Entry>)
    ensures IsPass(es, fs, env, updated)
    ensures SameKeys(es, updated)
  {
    updated := es;
    var i := 0;
    while i < |es|
      invariant 0 <= i <= |es| && |updated| == |es|
      invariant forall j :: 0 <= j < i ==> updated[j] == es[j].(previewText := HydratedPreview(fs, env, es[j]))
      invariant forall j :: i <= j < |es| ==> updated[j] == es[j]
    {
      var preview;
      match Read(fs, env, updated[i].filename) {
        case Contents(content) => preview := Preview.PreviewOf(content);
        case Missing => preview := Preview.FileMissing;
        case Unreadable => preview := Preview.ReadError;
      }
      if updated[i].previewText != preview {
        updated := updated[i := updated[i].(previewText := preview)];
      }
      i := i + 1;
    }
  }

  /** The commit as written: the list becomes the pass, whatever happened
      to the list since the pass took its copy. */
  function CommitAsWritten(s: State, pass: seq<Entry>): (r: State)
    ensures r.entries == pass
    ensures r == s.(entries := pass)
  {
    s.(entries := pass)
  }

  /** The commit as intended: each entry still listed takes the preview the
      pass computed for its id, and nothing else changes. */
  function Commit(s: State, pass: seq<Entry>): (r: State)
    ensures r == s.(entries := r.entries)
    ensures SameKeys(s.entries, r.entries)
    ensures forall i :: 0 <= i < |s.entries| ==>
      r.entries[i].isFavorite == s.entries[i].isFavorite
      && r.entries[i].previewText ==
           match IndexOf(pass, s.entries[i].id)
           case Some(j) => pass[j].previewText
           case None => s.entries[i].previewText
  {
    var es := seq(|s.entries|, i requires 0 <= i < |s.entries| =>
      match IndexOf(pass, s.entries[i].id)
      case Some(j) => s.entries[i].(previewText := pass[j].previewText)
      case None => s.entries[i]);
    s.(entries := es)
  }

  /** The intended commit keeps the invariant, whatever the pass holds. */
  lemma CommitValid(s: State, pass: seq<Entry>)
    requires Valid(s)
    ensures Valid(Commit(s, pass))
    ensures UniqueIds(s.entries) ==> UniqueIds(Commit(s, pass).entries)
  {
    SameKeysKeep(s.entries, Commit(s, pass).entries);
  }

  /** When nothing changed the list while the pass ran, the intended commit
      is what the source does: with unique ids the two agree. */
  lemma CommitAgreesWhenUndisturbed(s: State, env: Env, pass: seq<Entry>)
    requires UniqueIds(s.entries)
    requires IsPass(s.entries, s.fs, env, pass)
    ensures Commit(s, pass) == CommitAsWritten(s, pass)
  {
    var r := Commit(s, pass);
    forall i | 0 <= i < |s.entries| ensures r.entries[i] == pass[i] {
      PassFindsItself(s.entries, s.fs, env, pass, i);
    }
    assert r.entries == pass;
  }

  /** With unique ids, the pass finds each entry at its own position. */
  lemma PassFindsItself(es: seq<Entry>, fs: Files, env: Env, pass: seq<Entry>, i: nat)
    requires UniqueIds(es) && IsPass(es, fs, env, pass) && i < |es|
    ensures IndexOf(pass, es[i].id) == Some(i)
  {
    assert pass[i].id == es[i].id;
    forall j | 0 <= j < |pass| && pass[j].id == es[i].id ensures j == i {
      assert es[j].id == pass[j].id;
    }
  }

  /** A deletion made while the pass runs: the source's commit puts the
      deleted entry back in the list although its body is gone, while the
      intended commit keeps it deleted. */
  lemma AsWrittenResurrectsDeleted(s: State, env: Env, target: Entry, pass: seq<Entry>, sidecarRemoveOk: bool)
    requires UniqueIds(s.entries) && Contains(s.entries, target.id)
    requires IsPass(s.entries, s.fs, env, pass)
    ensures var later := Delete(s, env, target, true, sidecarRemoveOk);
      && Contains(CommitAsWritten(later, pass).entries, target.id)
      && target.filename !in CommitAsWritten(later, pass).fs
      && !Contains(Commit(later, pass).entries, target.id)
  {
    var later := Delete(s, env, target, true, sidecarRemoveOk);
    DeleteRemovesExactlyOne(s, env, target, true, sidecarRemoveOk);
    DeleteFiles(s, env, target, true, sidecarRemoveOk);
    var i := IndexOf(s.entries, target.id).value;
    assert pass[i].id == target.id;
    SameKeysLookup(later.entries, Commit(later, pass).entries);
  }

  /** The preview a successful save leaves on the entry is the one a later
      pass computes from the body it wrote. */
  lemma SavedPreviewIsHydrated(s: State, env: Env, text: string)
    requires SaveTarget(s).Some?
    requires s.entries[SaveTarget(s).value].filename !in env.unreadable
    ensures var r := Save(s, text, true);
      var i := SaveTarget(s).value;
      r.entries[i].previewText == HydratedPreview(r.fs, env, r.entries[i])
  {
  }

  /** Likewise for the entry a successful create puts in front. */
  lemma CreatedPreviewIsHydrated(s: State, env: Env, mood: Moods.Mood, emoji: string, id: Uuids.Uuid,
                                 now: Timestamps.Timestamp)
    requires Timestamps.Valid(now)
    requires CreateNew(mood, id, now).filename !in env.unreadable
    ensures var r := Create(s, mood, emoji, id, now, true);
      r.entries[0].previewText == HydratedPreview(r.fs, env, r.entries[0])
  {
    var r := Create(s, mood, emoji, id, now, true);
    assert r.entries[0].filename == CreateNew(mood, id, now).filename;
  }
}

=== FILE: insights.dfy ===
/** The AI-insight sidecar: the sections of a reply are kept next to the
    entry's body, under the name `aiFilename` derives from it, and are read
    back when the entry is selected. */
module Insights {
  import opened Wrappers
  import opened Sections
  import opened Disk
  import FilenameCodec
  import Markdown

  /** `saveAIResponse`: the sections, encoded, replace the sidecar of the
      body. Nothing happens when the body name has no sidecar name or the
      write fails, and no other file is ever touched. */
  function Save(fs: Files, env: Env, body: string, sections: seq<Section>, writeOk: bool): (r: Files)
    ensures forall k :: FilenameCodec.AiFilename(body) != Some(k) ==>
      (k in r <==> k in fs) && (k in r ==> r[k] == fs[k])
    ensures writeOk && FilenameCodec.AiFilename(body).Some? ==>
      var side := FilenameCodec.AiFilename(body).value;
      side in r && (Faithful(env.json) ==> env.json.decode(r[side]) == Some(sections))
    ensures !writeOk || FilenameCodec.AiFilename(body).None? ==> r == fs
  {
    match FilenameCodec.AiFilename(body)
    case None => fs
    case Some(side) => Write(fs, side, env.json.encode(sections), writeOk)
  }

  /** `loadAIResponse`: `None` when the body name has no sidecar name (the
      sections on screen are then left alone); otherwise the decoded
      sidecar, or no sections at all when it is missing, unreadable or
      does not decode. */
  function Load(fs: Files, env: Env, body: string): (r: Option<seq<Section>>)
    ensures r.None? <==> FilenameCodec.AiFilename(body).None?
    ensures r.Some? && r.value != [] ==>
      var side := FilenameCodec.AiFilename(body).value;
      side in fs && side !in env.unreadable && env.json.decode(fs[side]) == Some(r.value)
    ensures var side := FilenameCodec.AiFilename(body);
      side.Some? && side.value in fs && side.value !in env.unreadable && env.json.decode(fs[side.value]).Some? ==>
        r == env.json.decode(fs[side.value])
    ensures var side := FilenameCodec.AiFilename(body);
      side.Some? && (side.value !in fs || side.value in env.unreadable || env.json.decode(fs[side.value]).None?) ==>
        r == Some([])
  {
    match FilenameCodec.AiFilename(body)
    case None => None
    case Some(side) =>
      match Read(fs, env, side)
      case Contents(text) => Some(env.json.decode(text).GetOr([]))
      case _ => Some([])
  }

  /** Saving then loading gives back what was saved. */
  lemma LoadAfterSave(fs: Files, env: Env, body: string, sections: seq<Section>)
    requires Faithful(env.json)
    requires FilenameCodec.AiFilename(body).Some?
    requires FilenameCodec.AiFilename(body).value !in env.unreadable
    ensures Load(Save(fs, env, body, sections, true), env, body) == Some(sections)
  {
    var side := FilenameCodec.AiFilename(body).value;
    var r := Save(fs, env, body, sections, true);
    assert Read(r, env, side) == Contents(env.json.encode(sections));
  }

  /** Saving the insights of one entry leaves what every other loadable
      entry reads back unchanged: distinct bodies have distinct sidecars. */
  lemma SaveIsolated(fs: Files, env: Env, body: string, other: string, sections: seq<Section>, writeOk: bool)
    requires FilenameCodec.Decode(body).Some? && FilenameCodec.Decode(other).Some?
    requires body != other
    ensures Load(Save(fs, env, body, sections, writeOk), env, other) == Load(fs, env, other)
  {
    FilenameCodec.AiFilenameOfDecodable(body);
    FilenameCodec.AiFilenameOfDecodable(other);
    if FilenameCodec.AiFilename(body) == FilenameCodec.AiFilename(other) {
      FilenameCodec.SidecarInjective(body, other);
    }
    var side := FilenameCodec.AiFilename(other).value;
    var r := Save(fs, env, body, sections, writeOk);
    assert Read(r, env, side) == Read(fs, env, side);
  }

  /** The part of `fetchAIResponse` that runs once the reply text is in:
      parse it, drop a leading greeting, store the sections next to the
      entry when there is an entry and something to store, and show them.
      Returns the sections shown and the directory afterwards. */
  function Receive(fs: Files, env: Env, reply: string, entryFilename: Option<string>, writeOk: bool)
    : (r: (seq<Section>, Files))
    ensures Markdown.Shaped(r.0)
    ensures r.0 == [] || !Markdown.IsGreeting(r.0[0])
    ensures Markdown.Titles(r.0) == Markdown.Titles(Markdown.Parse(reply))
    ensures r.0 == Markdown.StripGreeting(Markdown.Parse(reply))
    ensures r.0 == [] || entryFilename.None? ==> r.1 == fs
    ensures entryFilename.Some? && r.0 != [] ==> r.1 == Save(fs, env, entryFilename.value, r.0, writeOk)
  {
    var parsed := Markdown.Parse(reply);
    var shown := Markdown.StripGreeting(parsed);
    Markdown.StripGreetingIdempotent(parsed);
    var files :=
      if entryFilename.Some? && shown != [] then Save(fs, env, entryFilename.value, shown, writeOk)
      else fs;
    (shown, files)
  }

  /** What a stored reply looks like when the entry is selected again: the
      very sections that were shown. */
  lemma ReceiveThenLoad(fs: Files, env: Env, reply: string, body: string)
    requires Faithful(env.json)
    requires FilenameCodec.AiFilename(body).Some?
    requires FilenameCodec.AiFilename(body).value !in env.unreadable
    ensures var r := Receive(fs, env, reply, Some(body), true);
      r.0 != [] ==> Load(r.1, env, body) == Some(r.0)
  {
    var r := Receive(fs, env, reply, Some(body), true);
    if r.0 != [] {
      LoadAfterSave(fs, env, body, r.0);
    }
  }
}

=== FILE: markdown.dfy ===
/** `parseMarkdown`: the AI reply is cut into lines at every newline (empty
    lines are dropped); a line that starts with `#` once its spaces are
    trimmed opens a new section titled by the rest of the line, and the
    lines in between become the trimmed content of the section before. */
module Markdown {
  import opened Wrappers
  import opened Text
  import opened Sections

  /** No whitespace or newline at either end. */
  predicate Trimmed(s: string) {
    s == [] || (!In(Whitespace, s[0]) && !In(Whitespace, s[|s| - 1]))
  }

  /** The line opens a section: its first character other than a space is `#`. */
  predicate IsHeading(line: string) {
    line != [] && (if IsSpace(line[0]) then IsHeading(line[1..]) else line[0] == '#')
  }

  /** That is the parser's test: the line, trimmed of spaces, starts with `#`. */
  lemma {:induction false} IsHeadingTrim(line: string)
    ensures IsHeading(line) <==> StartsWith(Trim(line, Spaces), "#")
  {
    if line != [] {
      if IsSpace(line[0]) {
        assert TrimStart(line, Spaces) == TrimStart(line[1..], Spaces);
        IsHeadingTrim(line[1..]);
      } else {
        var r := Trim(line, Spaces);
        assert TrimStart(line, Spaces) == line;
        TrimEndFacts(line, Spaces);
        assert r != [] && r[0] == line[0];
      }
    }
  }

  /** A heading's title: the line without its spaces, its leading `#` run
      and the spaces after that run. */
  function HeadingTitle(line: string): (t: string)
    ensures t == [] || (!In(Spaces, t[0]) && !In(Spaces, t[|t| - 1]))
  {
    TrimFacts(DropLeading(Trim(line, Spaces), '#'), Spaces);
    Trim(DropLeading(Trim(line, Spaces), '#'), Spaces)
  }

  /** A section's content: its lines joined by `\n`, then trimmed. */
  function Body(lines: seq<string>): (c: string)
    ensures Trimmed(c)
  {
    TrimFacts(Join(lines, "\n"), Whitespace);
    Trim(Join(lines, "\n"), Whitespace)
  }

  function Lines(md: string): seq<string> {
    Split(md, Newlines)
  }

  // ---------------------------------------------------------------------------
  // The parser loop

  /** The loop's variables: the sections so far, the title of the open
      section (`nil` before the first heading) and its collected lines. */
  datatype Builder = Builder(sections: seq<Section>, title: Option<string>, lines: seq<string>)

  const Start: Builder := Builder([], None, [])

  /** Closing the open section: it is kept when it has content or a title. */
  function Flush(b: Builder): seq<Section> {
    var content := Body(b.lines);
    if content != [] || b.title.Some? then b.sections + [Section(b.title, content)] else b.sections
  }

  function Step(b: Builder, line: string): Builder {
    if IsHeading(line) then Builder(Flush(b), Some(HeadingTitle(line)), [])
    else b.(lines := b.lines + [line])
  }

  function Fold(b: Builder, lines: seq<string>): Builder
    decreases |lines|
  {
    if lines == [] then b else Fold(Step(b, lines[0]), lines[1..])
  }

  /** The loop over the lines followed by closing the last section. */
  function Sectionize(lines: seq<string>): (r: seq<Section>)
    ensures Shaped(r)
  {
    FoldWellFormed(Start, lines);
    Flush(Fold(Start, lines))
  }

  /** The parser, including its fallback for text without headings. */
  function Parse(md: string): (r: seq<Section>)
    ensures Shaped(r)
  {
    var sections := Sectionize(Lines(md));
    var whole := Trim(md, Whitespace);
    TrimFacts(md, Whitespace);
    if sections == [] && whole != [] then [Section(None, whole)] else sections
  }

  // ---------------------------------------------------------------------------
  // Shape of the result

  /** Every content is trimmed and only the first section may lack a title. */
  predicate Shaped(ss: seq<Section>) {
    && (forall i :: 0 <= i < |ss| ==> Trimmed(ss[i].content))
    && (forall i :: 0 < i < |ss| ==> ss[i].title.Some?)
  }

  predicate WellFormed(b: Builder) {
    Shaped(b.sections) && (b.title.None? ==> b.sections == [])
  }

  lemma FlushShaped(b: Builder)
    requires WellFormed(b)
    ensures Shaped(Flush(b))
  {
    var content := Body(b.lines);
    if content != [] || b.title.Some? {
      var r := b.sections + [Section(b.title, content)];
      assert Flush(b) == r;
      assert forall i :: 0 <= i < |b.sections| ==> r[i] == b.sections[i];
      assert r[|b.sections|].content == content;
    }
  }

  lemma {:induction false} FoldWellFormed(b: Builder, lines: seq<string>)
    requires WellFormed(b)
    ensures WellFormed(Fold(b, lines))
    ensures Shaped(Flush(Fold(b, lines)))
    decreases |lines|
  {
    if lines == [] {
      FlushShaped(b);
    } else {
      FlushShaped(b);
      FoldWellFormed(Step(b, lines[0]), lines[1..]);
    }
  }

  lemma StepNoHeading(b: Builder, line: string)
    requires !IsHeading(line)
    ensures Step(b, line) == b.(lines := b.lines + [line])
  {
  }

  /** Lines without headings only extend the open section. */
  lemma FoldPlainLine(b: Builder, lines: seq<string>)
    requires lines != [] && !IsHeading(lines[0])
    ensures Fold(b, lines) == Fold(b.(lines := b.lines + [lines[0]]), lines[1..])
  {
    StepNoHeading(b, lines[0]);
  }

  predicate NoHeadings(lines: seq<string>) {
    lines == [] || (!IsHeading(lines[0]) && NoHeadings(lines[1..]))
  }

  lemma {:induction false} NoHeadingsAll(lines: seq<string>)
    requires forall i :: 0 <= i < |lines| ==> !IsHeading(lines[i])
    ensures NoHeadings(lines)
    decreases |lines|
  {
    if lines != [] {
      assert !IsHeading(lines[0]);
      NoHeadingsAll(lines[1..]);
    }
  }

  lemma {:induction false} FoldNoHeadings(b: Builder, lines: seq<string>)
    requires NoHeadings(lines)
    ensures Fold(b, lines) == b.(lines := b.lines + lines)
    decreases |lines|
  {
    if lines == [] {
      assert b.lines + lines == b.lines;
    } else {
      FoldPlainLine(b, lines);
      FoldNoHeadings(b.(lines := b.lines + [lines[0]]), lines[1..]);
      assert b.lines + [lines[0]] + lines[1..] == b.lines + lines;
    }
  }

  /** Once a heading has been seen, a title stays open. */
  lemma {:induction false} FoldKeepsTitle(b: Builder, lines: seq<string>, i: nat)
    requires i < |lines| && IsHeading(lines[i])
    ensures Fold(b, lines).title.Some?
    decreases |lines|
  {
    if i > 0 {
      FoldKeepsTitle(Step(b, lines[0]), lines[1..], i - 1);
    } else {
      FoldKeepsTitleOpen(Step(b, lines[0]), lines[1..]);
    }
  }

  lemma {:induction false} FoldKeepsTitleOpen(b: Builder, lines: seq<string>)
    requires b.title.Some?
    ensures Fold(b, lines).title.Some?
    decreases |lines|
  {
    if lines != [] {
      FoldKeepsTitleOpen(Step(b, lines[0]), lines[1..]);
    }
  }

  /** Lines that are all spaces are never headings. */
  lemma {:induction false} BlankLineIsNoHeading(line: string)
    requires AllIn(line, Spaces)
    ensures !IsHeading(line)
  {
    if line != [] {
      BlankLineIsNoHeading(line[1..]);
    }
  }

  lemma {:induction false} BlankLinesNoHeadings(ls: seq<string>)
    requires forall i :: 0 <= i < |ls| ==> AllIn(ls[i], Whitespace) && NoneIn(ls[i], Newlines)
    ensures NoHeadings(ls)
    decreases |ls|
  {
    if ls != [] {
      assert AllIn(ls[0], Spaces);
      BlankLineIsNoHeading(ls[0]);
      BlankLinesNoHeadings(ls[1..]);
    }
  }

  lemma ParseBlank(md: string)
    requires AllIn(md, Whitespace)
    ensures Parse(md) == []
  {
    var ls := Lines(md);
    BlankLines(md);
    BlankLinesNoHeadings(ls);
    SectionizeBlank(ls);
    TrimEmptyIff(md, Whitespace);
  }

  lemma BlankLines(md: string)
    requires AllIn(md, Whitespace)
    ensures forall i :: 0 <= i < |Lines(md)| ==> AllIn(Lines(md)[i], Whitespace) && NoneIn(Lines(md)[i], Newlines)
  {
    SplitBlank(md, Newlines);
    SplitPieces(md, Newlines);
  }

  /** Blank lines without a heading make no section. */
  lemma SectionizeBlank(ls: seq<string>)
    requires NoHeadings(ls)
    requires forall i :: 0 <= i < |ls| ==> AllIn(ls[i], Whitespace)
    ensures Sectionize(ls) == []
  {
    FoldNoHeadings(Start, ls);
    assert Fold(Start, ls) == Builder([], None, ls);
    BodyBlank(ls);
  }

  lemma BodyBlank(ls: seq<string>)
    requires forall i :: 0 <= i < |ls| ==> AllIn(ls[i], Whitespace)
    ensures Body(ls) == []
  {
    var j := Join(ls, "\n");
    assert AllIn("\n", Whitespace);
    AllInJoin(ls, "\n", Whitespace);
    TrimEmptyIff(j, Whitespace);
  }

  /** The parse is empty exactly when the reply is blank. */
  lemma ParseEmptyIff(md: string)
    ensures Parse(md) == [] <==> AllIn(md, Whitespace)
  {
    TrimEmptyIff(md, Whitespace);
    if AllIn(md, Whitespace) {
      ParseBlank(md);
    }
  }

  /** The fallback for text without headings never fires: the loop alone
      already yields the whole trimmed reply as one untitled section. */
  lemma FallbackUnreachable(md: string)
    ensures Parse(md) == Sectionize(Lines(md))
  {
    var ls := Lines(md);
    var b := Fold(Start, ls);
    if Flush(b) == [] {
      if i :| 0 <= i < |ls| && IsHeading(ls[i]) {
        FoldKeepsTitle(Start, ls, i);
      } else {
        NoHeadingsAll(ls);
        FoldNoHeadings(Start, ls);
        assert b.lines == ls;
        TrimEmptyIff(Join(ls, "\n"), Whitespace);
        AllInJoin(ls, "\n", Whitespace);
        SplitBlank(md, Newlines);
        TrimEmptyIff(md, Whitespace);
      }
    }
  }

  // ---------------------------------------------------------------------------
  // Titles

  function TitleOf(s: Section): seq<string> {
    match s.title
    case Some(t) => [t]
    case None => []
  }

  /** The titles of the titled sections, in order. */
  function Titles(ss: seq<Section>): seq<string> {
    if ss == [] then [] else TitleOf(ss[0]) + Titles(ss[1..])
  }

  lemma {:induction false} TitlesAppend(a: seq<Section>, b: seq<Section>)
    ensures Titles(a + b) == Titles(a) + Titles(b)
  {
    if a != [] {
      assert (a + b)[0] == a[0] && (a + b)[1..] == a[1..] + b;
      TitlesAppend(a[1..], b);
    } else {
      assert a + b == b;
    }
  }

  /** The titles the heading lines announce, in order. */
  function HeadingTitles(lines: seq<string>): seq<string> {
    if lines == [] then []
    else (if IsHeading(lines[0]) then [HeadingTitle(lines[0])] else []) + HeadingTitles(lines[1..])
  }

  function Pending(b: Builder): seq<string> {
    match b.title
    case Some(t) => [t]
    case None => []
  }

  lemma FlushTitles(b: Builder)
    ensures Titles(Flush(b)) == Titles(b.sections) + Pending(b)
  {
    var content := Body(b.lines);
    if content != [] || b.title.Some? {
      TitlesAppend(b.sections, [Section(b.title, content)]);
    }
  }

  lemma StepTitles(b: Builder, line: string)
    ensures var n := Step(b, line);
      Titles(n.sections) + Pending(n)
      == Titles(b.sections) + Pending(b) + (if IsHeading(line) then [HeadingTitle(line)] else [])
  {
    if IsHeading(line) {
      FlushTitles(b);
    }
  }

  lemma {:induction false} FoldTitles(b: Builder, lines: seq<string>)
    ensures var f := Fold(b, lines);
      Titles(f.sections) + Pending(f) == Titles(b.sections) + Pending(b) + HeadingTitles(lines)
    decreases |lines|
  {
    if lines != [] {
      StepTitles(b, lines[0]);
      FoldTitles(Step(b, lines[0]), lines[1..]);
    }
  }

  /** Every heading line yields one titled section, in order, and no other
      section is titled: the titles of the parse are exactly the titles of
      the heading lines. */
  lemma ParseTitles(md: string)
    ensures Titles(Parse(md)) == HeadingTitles(Lines(md))
  {
    FallbackUnreachable(md);
    FoldTitles(Start, Lines(md));
    FlushTitles(Fold(Start, Lines(md)));
  }

  /** A heading line made of optional spaces, a run of `#`, optional spaces,
      a title and optional spaces has exactly that title. */
  lemma HeadingTitleOf(lead: string, hashes: nat, gap: string, t: string, trail: string)
    requires AllIn(lead, Spaces) && AllIn(gap, Spaces) && AllIn(trail, Spaces)
    requires hashes > 0
    requires t != [] && t[0] != '#' && !In(Spaces, t[0]) && !In(Spaces, t[|t| - 1])
    ensures var line := lead + (seq(hashes, _ => '#') + gap + t) + trail;
      IsHeading(line) && HeadingTitle(line) == t
  {
    var hs := seq(hashes, _ => '#');
    var core := hs + gap + t;
    var line := lead + core + trail;
    assert core[0] == '#';
    assert EndsWith(core, t) by { assert core[|core| - |t|..] == t; }
    HeadingCore(lead, core, trail, t);
    assert Trim(line, Spaces) == core;
    TitleAfterHashes(hashes, gap, t);
    IsHeadingTrim(line);
    assert HeadingTitle(line) == Trim(DropLeading(core, '#'), Spaces);
  }

  lemma HeadingCore(lead: string, core: string, trail: string, t: string)
    requires AllIn(lead, Spaces) && AllIn(trail, Spaces)
    requires core != [] && core[0] == '#' && t != [] && EndsWith(core, t) && !In(Spaces, t[|t| - 1])
    ensures Trim(lead + core + trail, Spaces) == core
  {
    assert core[|core| - 1] == t[|t| - 1];
    TrimPadded(lead, core, trail, Spaces);
  }

  lemma TitleAfterHashes(hashes: nat, gap: string, t: string)
    requires AllIn(gap, Spaces) && hashes > 0
    requires t != [] && t[0] != '#' && !In(Spaces, t[0]) && !In(Spaces, t[|t| - 1])
    ensures var core := seq(hashes, _ => '#') + gap + t;
      StartsWith(core, "#") && Trim(DropLeading(core, '#'), Spaces) == t
  {
    var core := seq(hashes, _ => '#') + gap + t;
    assert core[..1] == ['#'];
    assert core == seq(hashes, _ => '#') + (gap + t);
    DropHashes(hashes, gap + t);
    assert gap + t == gap + t + [];
    TrimPadded(gap, t, [], Spaces);
  }

  lemma {:induction false} DropHashes(hashes: nat, rest: string)
    requires rest == [] || rest[0] != '#'
    ensures DropLeading(seq(hashes, _ => '#') + rest, '#') == rest
  {
    if hashes > 0 {
      var s := seq(hashes, _ => '#') + rest;
      assert s[0] == '#';
      assert s[1..] == seq(hashes - 1, _ => '#') + rest;
      DropHashes(hashes - 1, rest);
    } else {
      assert seq(hashes, _ => '#') + rest == rest;
    }
  }

  // ---------------------------------------------------------------------------
  // Greeting removal

  const Greeting1: string := "hey, thanks for showing me this. my thoughts:"
  const Greeting2: string := "hey thanks for showing me this. my thoughts:"

  /** An untitled section whose lower-cased, trimmed content opens with one
      of the two stock greetings. */
  predicate IsGreeting(s: Section) {
    && s.title.None?
    && var p := Trim(Lower(s.content), Whitespace);
       StartsWith(p, Greeting1) || StartsWith(p, Greeting2)
  }

  /** The reply with a leading greeting section dropped: at most the first
      section goes, it goes exactly when it is a greeting, and no titled
      section is ever lost. */
  function StripGreeting(ss: seq<Section>): (r: seq<Section>)
    ensures |r| < |ss| <==> ss != [] && IsGreeting(ss[0])
    ensures |ss| - 1 <= |r| <= |ss| && r == ss[|ss| - |r|..]
    ensures Titles(r) == Titles(ss)
    ensures Shaped(ss) ==> Shaped(r)
  {
    if ss != [] && IsGreeting(ss[0]) then ss[1..] else ss
  }

  /** On a parse result stripping twice is stripping once: after the first
      section every section is titled, so no second greeting can surface. */
  lemma StripGreetingIdempotent(ss: seq<Section>)
    requires Shaped(ss)
    ensures StripGreeting(StripGreeting(ss)) == StripGreeting(ss)
  {
  }

  // ---------------------------------------------------------------------------
  // The clipboard format

  const SectionBreak: string := "\n\n"

  /** One section as copied: a `## title` block when it has a non-empty
      title, then its content. */
  function Piece(s: Section): string {
    (if s.title.Some? && s.title.value != [] then "\n## " + s.title.value + "\n\n" else []) + s.content
  }

  function Pieces(ss: seq<Section>): (r: seq<string>)
    ensures |r| == |ss|
  {
    if ss == [] then [] else [Piece(ss[0])] + Pieces(ss[1..])
  }

  /** `copyAIResponseToClipboard`'s text: the pieces joined by blank lines. */
  function ClipboardText(ss: seq<Section>): string {
    Join(Pieces(ss), SectionBreak)
  }

  /** A title the copy survives: non-empty, on one line, with no spaces
      around it and not itself starting with `#`. */
  predicate CopyableTitle(t: string) {
    t != [] && t[0] != '#' && !In(Spaces, t[0]) && !In(Spaces, t[|t| - 1]) && NoneIn(t, Newlines)
  }

  /** A content the copy survives: trimmed, its lines separated by single
      `\n` characters, no empty line and no line that reads as a heading. */
  predicate CopyableContent(c: string) {
    Trimmed(c) && Join(Lines(c), "\n") == c && NoHeadings(Lines(c))
  }

  /** Sections the clipboard text represents faithfully. */
  predicate Copyable(ss: seq<Section>) {
    && (forall i :: 0 <= i < |ss| ==> CopyableContent(ss[i].content))
    && (forall i :: 0 <= i < |ss| && ss[i].title.Some? ==> CopyableTitle(ss[i].title.value))
    && (forall i :: 0 < i < |ss| ==> ss[i].title.Some?)
    && (ss != [] && ss[0].title.None? ==> ss[0].content != [])
  }

  /** The lines the parser sees for one copied section. */
  function SectionLines(s: Section): seq<string> {
    (if s.title.Some? then ["## " + s.title.value] else []) + Lines(s.content)
  }

  function FlatLines(ss: seq<Section>): seq<string> {
    if ss == [] then [] else SectionLines(ss[0]) + FlatLines(ss[1..])
  }

  /** A blank line between two texts splits into the lines of each. */
  lemma SplitBreak(a: string, b: string)
    ensures Lines(a + SectionBreak + b) == Lines(a) + Lines(b)
  {
    assert a + SectionBreak + b == a + ['\n'] + (['\n'] + b);
    SplitAtSeparator(a, '\n', ['\n'] + b, Newlines);
    assert ['\n'] + b == [] + ['\n'] + b;
    SplitAtSeparator([], '\n', b, Newlines);
  }

  lemma LeadingNewline(x: string)
    ensures Lines(['\n'] + x) == Lines(x)
  {
    assert ['\n'] + x == [] + ['\n'] + x;
    SplitAtSeparator([], '\n', x, Newlines);
  }

  lemma HeadingLine(t: string)
    requires t != [] && NoneIn(t, Newlines)
    ensures Lines("## " + t) == ["## " + t]
  {
    var h := "## " + t;
    assert forall j :: 3 <= j < |h| ==> h[j] == t[j - 3];
    SplitNone(h, Newlines);
  }

  lemma LinesOfPiece(s: Section)
    requires s.title.Some? ==> CopyableTitle(s.title.value)
    ensures Lines(Piece(s)) == SectionLines(s)
  {
    if s.title.Some? {
      var h := "## " + s.title.value;
      var c := s.content;
      assert Piece(s) == ['\n'] + (h + SectionBreak + c);
      LeadingNewline(h + SectionBreak + c);
      SplitBreak(h, c);
      HeadingLine(s.title.value);
    } else {
      assert Piece(s) == s.content;
    }
  }

  lemma {:induction false} LinesOfClipboard(ss: seq<Section>)
    requires forall i :: 0 <= i < |ss| && ss[i].title.Some? ==> CopyableTitle(ss[i].title.value)
    ensures Lines(ClipboardText(ss)) == FlatLines(ss)
  {
    if |ss| == 1 {
      LinesOfPiece(ss[0]);
      assert FlatLines(ss[1..]) == [];
    } else if |ss| > 1 {
      LinesOfPiece(ss[0]);
      LinesOfClipboard(ss[1..]);
      assert Pieces(ss)[1..] == Pieces(ss[1..]);
      SplitBreak(Piece(ss[0]), ClipboardText(ss[1..]));
    }
  }

  lemma {:induction false} FoldAppend(b: Builder, x: seq<string>, y: seq<string>)
    ensures Fold(b, x + y) == Fold(Fold(b, x), y)
    decreases |x|
  {
    if x == [] {
      assert x + y == y;
    } else {
      assert (x + y)[0] == x[0] && (x + y)[1..] == x[1..] + y;
      FoldAppend(Step(b, x[0]), x[1..], y);
    }
  }

  lemma HeadingOfTitle(t: string)
    requires CopyableTitle(t)
    ensures IsHeading("## " + t) && HeadingTitle("## " + t) == t
  {
    assert "## " + t == [] + (seq(2, _ => '#') + " " + t) + [];
    HeadingTitleOf([], 2, " ", t, []);
  }

  lemma FoldCons(b: Builder, h: string, ls: seq<string>)
    ensures Fold(b, [h] + ls) == Fold(Step(b, h), ls)
  {
    assert ([h] + ls)[0] == h && ([h] + ls)[1..] == ls;
  }

  lemma StepHeading(b: Builder, h: string)
    requires IsHeading(h)
    ensures Step(b, h) == Builder(Flush(b), Some(HeadingTitle(h)), [])
  {
  }

  /** A heading line followed by plain lines opens a section with that
      title and collects the plain lines. */
  lemma FoldHeadingThen(b: Builder, t: string, ls: seq<string>)
    requires CopyableTitle(t) && NoHeadings(ls)
    ensures Fold(b, ["## " + t] + ls) == Builder(Flush(b), Some(t), ls)
  {
    var h := "## " + t;
    HeadingOfTitle(t);
    StepHeading(b, h);
    var b' := Builder(Flush(b), Some(t), []);
    FoldCons(b, h, ls);
    FoldNoHeadings(b', ls);
    assert [] + ls == ls;
  }

  /** A copied section opens a section with its title and collects its
      content lines. */
  lemma FoldSection(b: Builder, s: Section)
    requires s.title.Some? && CopyableTitle(s.title.value) && CopyableContent(s.content)
    ensures Fold(b, SectionLines(s)) == Builder(Flush(b), s.title, Lines(s.content))
  {
    assert SectionLines(s) == ["## " + s.title.value] + Lines(s.content);
    FoldHeadingThen(b, s.title.value, Lines(s.content));
  }

  /** The first copied section, titled or not, is the open section once its
      lines have been read. */
  lemma FoldFirst(s: Section)
    requires s.title.Some? ==> CopyableTitle(s.title.value)
    requires CopyableContent(s.content)
    ensures Fold(Start, SectionLines(s)) == Builder([], s.title, Lines(s.content))
  {
    if s.title.Some? {
      FoldSection(Start, s);
      assert Flush(Start) == [];
    } else {
      assert SectionLines(s) == Lines(s.content);
      FoldNoHeadings(Start, Lines(s.content));
      assert [] + Lines(s.content) == Lines(s.content);
    }
  }

  /** Closing a section whose lines are those of a copyable content gives
      that content back. */
  lemma FlushPending(sections: seq<Section>, p: Section)
    requires CopyableContent(p.content) && (p.title.Some? || p.content != [])
    ensures Flush(Builder(sections, p.title, Lines(p.content))) == sections + [p]
  {
    TrimNoop(p.content, Whitespace);
  }

  lemma AppendCons<T>(x: seq<T>, ts: seq<T>)
    requires ts != []
    ensures x + [ts[0]] + ts[1..] == x + ts
  {
    assert ts == [ts[0]] + ts[1..];
  }

  /** A section after the first: titled, and copyable. */
  predicate CopyableTitled(s: Section) {
    s.title.Some? && CopyableTitle(s.title.value) && CopyableContent(s.content)
  }

  lemma {:induction false} FoldRest(sections: seq<Section>, p: Section, ts: seq<Section>)
    requires CopyableContent(p.content) && (p.title.Some? || p.content != [])
    requires forall i :: 0 <= i < |ts| ==> CopyableTitled(ts[i])
    ensures Flush(Fold(Builder(sections, p.title, Lines(p.content)), FlatLines(ts))) == sections + [p] + ts
    decreases |ts|
  {
    var b := Builder(sections, p.title, Lines(p.content));
    if ts == [] {
      calc {
        Flush(Fold(b, FlatLines(ts)));
        Flush(b);
        { FlushPending(sections, p); }
        sections + [p];
        { assert sections + [p] + ts == sections + [p]; }
        sections + [p] + ts;
      }
    } else {
      var t := ts[0];
      calc {
        Flush(Fold(b, FlatLines(ts)));
        Flush(Fold(b, SectionLines(t) + FlatLines(ts[1..])));
        { FoldAppend(b, SectionLines(t), FlatLines(ts[1..])); }
        Flush(Fold(Fold(b, SectionLines(t)), FlatLines(ts[1..])));
        { assert CopyableTitled(t); FoldSection(b, t); FlushPending(sections, p); }
        Flush(Fold(Builder(sections + [p], t.title, Lines(t.content)), FlatLines(ts[1..])));
        { assert CopyableTitled(t);
          assert forall i :: 0 <= i < |ts| - 1 ==> ts[1..][i] == ts[i + 1];
          FoldRest(sections + [p], t, ts[1..]); }
        sections + [p] + [t] + ts[1..];
        { AppendCons(sections + [p], ts); }
        sections + [p] + ts;
      }
    }
  }

  /** Copying sections to the clipboard and parsing the copy gives the
      sections back, when their titles and contents fit the format. */
  lemma ClipboardRoundTrip(ss: seq<Section>)
    requires Copyable(ss)
    ensures Parse(ClipboardText(ss)) == ss
  {
    var md := ClipboardText(ss);
    FallbackUnreachable(md);
    LinesOfClipboard(ss);
    if ss != [] {
      var s := ss[0];
      FoldAppend(Start, SectionLines(s), FlatLines(ss[1..]));
      FoldFirst(s);
      assert forall i :: 0 <= i < |ss| - 1 ==> ss[1..][i] == ss[i + 1];
      FoldRest([], s, ss[1..]);
      assert [] + [s] + ss[1..] == ss;
    } else {
      assert Sectionize(Lines(md)) == Flush(Start);
    }
  }
}

=== FILE: moods.dfy ===
/** The entry category (`Mood`) and its one-letter filename tag. */
module Moods {
  import opened Wrappers

  datatype Mood = Vent | Explore | Plan

  /** The enum's `rawValue`. */
  function RawValue(m: Mood): string {
    match m
    case Vent => "Vent"
    case Explore => "Explore"
    case Plan => "Plan"
  }

  /** The tag `createNew` writes into the filename. */
  function Initial(m: Mood): char {
    match m
    case Vent => 'V'
    case Explore => 'E'
    case Plan => 'P'
  }

  /** The loader's switch on the tag: only `V`, `E` and `P` name a mood. */
  function FromInitial(c: char): (r: Option<Mood>)
    ensures r.Some? <==> c == 'V' || c == 'E' || c == 'P'
    ensures r.Some? ==> Initial(r.value) == c
  {
    match c
    case 'V' => Some(Vent)
    case 'E' => Some(Explore)
    case 'P' => Some(Plan)
    case _ => None
  }

  /** The category a name without a usable tag falls back to. */
  const DefaultMood: Mood := Explore

  /** Tag and decoder are inverse, so the tag map is injective. */
  lemma InitialRoundTrip(m: Mood, n: Mood)
    ensures FromInitial(Initial(m)) == Some(m)
    ensures Initial(m) == Initial(n) ==> m == n
  {
  }

  lemma RawValuesDistinct(m: Mood, n: Mood)
    ensures RawValue(m) == RawValue(n) ==> m == n
  {
  }

  /** The seed line `finalizeEntryCreation` writes for each category. */
  function TypePrompt(m: Mood): string {
    match m
    case Vent => "spill the tea..."
    case Explore => "vibing with some ideas..."
    case Plan => "okay, what's the vibe check for today?"
  }
}

=== FILE: ordering.dfy ===
/** The order the entry list is kept in: newest first, by the creation
    instant the filename records (`sorted { $0.date > $1.date }`). */
module Ordering {
  import Timestamps
  import opened Entries

  /** No entry was created before an entry that follows it. */
  predicate NewestFirst(es: seq<Entry>) {
    forall i, j :: 0 <= i < j < |es| ==> !Timestamps.Before(es[i].created, es[j].created)
  }

  /** `e` placed in front of the first entry that is not newer than it. */
  function Insert(e: Entry, es: seq<Entry>): (r: seq<Entry>)
    ensures multiset(r) == multiset(es) + multiset{e}
  {
    if es == [] || !Timestamps.Before(e.created, es[0].created) then [e] + es
    else
      assert es == [es[0]] + es[1..];
      [es[0]] + Insert(e, es[1..])
  }

  /** Inserting into a newest-first list keeps it newest first. */
  lemma {:induction false} InsertSorted(e: Entry, es: seq<Entry>)
    requires NewestFirst(es)
    ensures NewestFirst(Insert(e, es))
  {
    if es == [] || !Timestamps.Before(e.created, es[0].created) {
      NewestFirstCons(e, es);
    } else {
      var tail := Insert(e, es[1..]);
      InsertSorted(e, es[1..]);
      assert es == [es[0]] + es[1..];
      Timestamps.BeforeIsStrictTotalOrder(e.created, es[0].created, e.created);
      assert tail[0] in multiset(tail);
      NewestFirstCons(es[0], tail);
    }
  }

  /** An entry may go in front of a newest-first list when it is at least as
      new as every entry in it. */
  lemma NewestFirstCons(e: Entry, es: seq<Entry>)
    requires NewestFirst(es)
    requires es == [] || !Timestamps.Before(e.created, es[0].created)
    ensures NewestFirst([e] + es)
  {
    var r := [e] + es;
    forall i, j | 0 <= i < j < |r| ensures !Timestamps.Before(r[i].created, r[j].created) {
      if i == 0 && j > 1 {
        Timestamps.BeforeIsStrictTotalOrder(e.created, es[0].created, es[j - 1].created);
        Timestamps.BeforeIsStrictTotalOrder(es[0].created, es[j - 1].created, e.created);
        Timestamps.BeforeIsStrictTotalOrder(e.created, es[j - 1].created, es[0].created);
      }
    }
  }

  /** The list sorted newest first: the same entries, each as often as
      before, now in order. Entries created in the same second keep their
      relative order. */
  function SortNewestFirst(es: seq<Entry>): (r: seq<Entry>)
    ensures multiset(r) == multiset(es)
    ensures NewestFirst(r)
  {
    if es == [] then []
    else
      assert es == [es[0]] + es[1..];
      InsertSorted(es[0], SortNewestFirst(es[1..]));
      Insert(es[0], SortNewestFirst(es[1..]))
  }

  /** Sorting keeps exactly the entries that were there. */
  lemma SortKeepsMembers(es: seq<Entry>, e: Entry)
    ensures e in SortNewestFirst(es) <==> e in es
  {
    assert e in SortNewestFirst(es) <==> e in multiset(SortNewestFirst(es));
  }
}

=== FILE: preview.dfy ===
/** The preview rule shared by save, create and bulk hydration: newlines
    become spaces, the result is trimmed, an empty result becomes a
    placeholder, and anything longer than 30 characters is cut to 30 and
    marked with an ellipsis. */
module Preview {
  import opened Text

  const Budget: nat := 30
  const Ellipsis: string := "..."
  const EmptyEntry: string := "(Empty Entry)"

  /** Placeholders hydration and loading use instead of a computed preview. */
  const Loading: string := "(Loading...)"
  const FileMissing: string := "(File Missing)"
  const ReadError: string := "(Error)"

  /** The body with newlines flattened and surrounding whitespace removed. */
  function Collapsed(content: string): (p: string)
    ensures '\n' !in p
    ensures p == [] || (!In(Whitespace, p[0]) && !In(Whitespace, p[|p| - 1]))
  {
    var f := NewlinesToSpaces(content);
    var p := Trim(f, Whitespace);
    TrimKeepsOut(f, Whitespace, '\n');
    TrimFacts(f, Whitespace);
    p
  }

  /** The preview of a body text. */
  function PreviewOf(content: string): (r: string)
    ensures var p := Collapsed(content);
      && (p == [] ==> r == EmptyEntry)
      && (0 < |p| <= Budget ==> r == p)
      && (|p| > Budget ==> |r| == Budget + |Ellipsis| && r[..Budget] == p[..Budget] && EndsWith(r, Ellipsis))
    ensures |r| <= Budget + |Ellipsis|
    ensures '\n' !in r
  {
    var p := Collapsed(content);
    if p == [] then EmptyEntry
    else if |p| > Budget then
      var r := p[..Budget] + Ellipsis;
      assert r[..Budget] == p[..Budget];
      assert forall i :: 0 <= i < Budget ==> r[i] == p[i];
      r
    else p
  }

  /** The body collapses to nothing exactly when it is all whitespace. */
  lemma EmptyPreviewIff(content: string)
    ensures Collapsed(content) == [] <==> AllIn(content, Whitespace)
  {
    var f := NewlinesToSpaces(content);
    TrimEmptyIff(f, Whitespace);
    assert AllIn(f, Whitespace) <==> AllIn(content, Whitespace) by {
      forall i | 0 <= i < |content| ensures In(Whitespace, f[i]) <==> In(Whitespace, content[i]) { }
    }
  }

  lemma CollapsedNoop(s: string)
    requires '\n' !in s
    requires s == [] || (!In(Whitespace, s[0]) && !In(Whitespace, s[|s| - 1]))
    ensures Collapsed(s) == s
  {
    NewlinesToSpacesNoop(s);
    TrimStartNoop(s, Whitespace);
    TrimEndNoop(s, Whitespace);
  }

  /** A preview is its own preview: recomputing it from the list never changes it. */
  lemma PreviewIdempotent(content: string)
    ensures PreviewOf(PreviewOf(content)) == PreviewOf(content)
  {
    var p := Collapsed(content);
    var r := PreviewOf(content);
    if p == [] {
      assert r == EmptyEntry;
      assert EmptyEntry[0] == '(' && EmptyEntry[|EmptyEntry| - 1] == ')';
      assert '\n' !in EmptyEntry;
      CollapsedNoop(r);
    } else if |p| > Budget {
      assert r[0] == p[0];
      assert r[|r| - 1] == '.';
      CollapsedNoop(r);
      assert r[..Budget] + Ellipsis == r;
    } else {
      CollapsedNoop(p);
    }
  }

  /** A two-line body previews as one line: `"hello\nworld"` previews as `"hello world"`. */
  lemma PreviewOfTwoLines(s: string)
    requires s == "hello\nworld"
    ensures PreviewOf(s) == "hello world"
  {
    var t := "hello world";
    assert NewlinesToSpaces(s) == t;
    assert t[0] == 'h' && t[|t| - 1] == 'd';
    assert '\n' !in t;
    CollapsedNoop(t);
  }

  /** A collapsed body over the budget is cut to 30 characters plus the ellipsis. */
  lemma TruncatedPreview(s: string)
    requires Collapsed(s) == s && |s| > Budget
    ensures PreviewOf(s) == s[..Budget] + Ellipsis
  {
  }

  /** A single-line body longer than 30 characters, with no surrounding
      whitespace, keeps its first 30 characters plus the ellipsis. */
  lemma PreviewOfLongLine(s: string)
    requires |s| > Budget && '\n' !in s
    requires !In(Whitespace, s[0]) && !In(Whitespace, s[|s| - 1])
    ensures PreviewOf(s) == s[..Budget] + Ellipsis
  {
    CollapsedNoop(s);
    TruncatedPreview(s);
  }

  /** Whitespace-only bodies show the empty-entry placeholder. */
  lemma PreviewOfBlank(content: string)
    requires AllIn(content, Whitespace)
    ensures PreviewOf(content) == EmptyEntry
  {
    EmptyPreviewIff(content);
  }
}

=== FILE: requests.dfy ===
/** The checks the two AI requests make before anything goes over the
    network: reflective feedback on the whole entry, and a guiding question
    from the end of it. Both share one in-flight flag and one error line. */
module Requests {
  import opened Wrappers
  import opened Text
  import opened Sections

  /** Feedback needs more than this many characters once trimmed. */
  const FeedbackMinimum: nat := 25
  /** A guiding question looks at no more than this many final characters. */
  const SnippetLimit: nat := 500
  /** ... and needs more than this many of them. */
  const SnippetMinimum: nat := 10

  const FeedbackTooShort: string := "Please write a bit more before requesting feedback."
  const QuestionTooShort: string := "Write a little more first!"
  /** What looking up a missing API key puts on the error line. */
  const KeyMissing: string := "API Key not configured. Please check setup."

  /** The request flags of the view model: the in-flight flag, the error
      line and the insight sections on screen. */
  datatype Asking = Asking(fetching: bool, error: Option<string>, sections: seq<Section>)

  /** What a request start leads to: nothing at all, a stop before the
      network (no API key, or a message for the writer), or a request
      carrying the given text. */
  datatype Outcome = Ignored | NoKey | Rejected(message: string) | Send(text: string)

  /** The trimmed editor text both requests start from: a stretch of the
      text with only whitespace around it, and none at either of its ends. */
  function Trimmed(text: string): (t: string)
    ensures |t| <= |text|
    ensures t == [] || (!In(Whitespace, t[0]) && !In(Whitespace, t[|t| - 1]))
    ensures exists a :: (0 <= a <= |text| - |t| && t == text[a..a + |t|]
      && AllIn(text[..a], Whitespace) && AllIn(text[a + |t|..], Whitespace))
  {
    TrimFacts(text, Whitespace);
    TrimSlice(text, Whitespace);
    Trim(text, Whitespace)
  }

  /** `fetchAIResponse` up to the request. It clears the error and the
      sections on screen and raises the flag whatever the flag was; without
      an API key it stops with the key lookup's message; a trimmed text of 25 characters or
      fewer stops with a message; otherwise the trimmed text is sent. */
  function StartFeedback(a: Asking, text: string, hasKey: bool): (r: (Asking, Outcome))
    ensures r.0.sections == []
    ensures r.1.Send? <==> hasKey && |Trimmed(text)| > FeedbackMinimum
    ensures r.1.Send? ==> r.1.text == Trimmed(text) && r.0.fetching && r.0.error.None?
    ensures !hasKey ==> r.1 == NoKey && !r.0.fetching && r.0.error == Some(KeyMissing)
    ensures hasKey && |Trimmed(text)| <= FeedbackMinimum ==>
      r.1 == Rejected(FeedbackTooShort) && !r.0.fetching && r.0.error == Some(FeedbackTooShort)
  {
    var started := Asking(true, None, []);
    if !hasKey then (started.(fetching := false, error := Some(KeyMissing)), NoKey)
    else
      var t := Trimmed(text);
      if |t| <= FeedbackMinimum then
        (started.(fetching := false, error := Some(FeedbackTooShort)), Rejected(FeedbackTooShort))
      else (started, Send(t))
  }

  /** The feedback request does not look at the in-flight flag: a second
      one starts whatever the first is doing. */
  lemma FeedbackIgnoresFlag(a: Asking, b: Asking, text: string, hasKey: bool)
    ensures StartFeedback(a, text, hasKey) == StartFeedback(b, text, hasKey)
  {
  }

  /** Sending the text that was sent passes the gate again, unchanged. */
  lemma FeedbackResend(a: Asking, text: string)
    requires StartFeedback(a, text, true).1.Send?
    ensures StartFeedback(a, StartFeedback(a, text, true).1.text, true) == StartFeedback(a, text, true)
  {
    TrimIdempotent(text, Whitespace);
  }

  /** At most the last 500 characters of the trimmed text. */
  function Snippet(t: string): (r: string)
    ensures |r| == if |t| <= SnippetLimit then |t| else SnippetLimit
    ensures r == t[|t| - |r|..]
  {
    if |t| <= SnippetLimit then t else t[|t| - SnippetLimit..]
  }

  /** `fetchGuidingQuestion` up to the request. While a request is in
      flight it does nothing. Otherwise it raises the flag and clears the
      error; without an API key it lowers the flag and puts the old error
      back over the key lookup's message; when the snippet has 10 characters or fewer it stops with a
      message; otherwise the snippet is sent. The sections on screen are
      never touched. */
  function StartQuestion(a: Asking, text: string, hasKey: bool): (r: (Asking, Outcome))
    ensures r.0.sections == a.sections
    ensures r.1 == Ignored <==> a.fetching
    ensures a.fetching ==> r.0 == a
    ensures !a.fetching && !hasKey ==> r == (a, NoKey)
    ensures r.1.Send? <==> !a.fetching && hasKey && |Trimmed(text)| > SnippetMinimum
    ensures r.1.Send? ==>
      && r.0.fetching && r.0.error.None?
      && |r.1.text| <= SnippetLimit && |r.1.text| <= |Trimmed(text)|
      && r.1.text == Trimmed(text)[|Trimmed(text)| - |r.1.text|..]
      && (|Trimmed(text)| <= SnippetLimit ==> r.1.text == Trimmed(text))
    ensures !a.fetching && hasKey && |Trimmed(text)| <= SnippetMinimum ==>
      r.1 == Rejected(QuestionTooShort) && !r.0.fetching && r.0.error == Some(QuestionTooShort)
  {
    if a.fetching then (a, Ignored)
    else
      var original := a.error;
      var started := a.(fetching := true, error := None);
      if !hasKey then (started.(fetching := false, error := original), NoKey)
      else
        var snippet := Snippet(Trimmed(text));
        if |snippet| <= SnippetMinimum then
          (started.(fetching := false, error := Some(QuestionTooShort)), Rejected(QuestionTooShort))
        else (started, Send(snippet))
  }

  /** Once a request is on its way, a guiding question is refused until the
      flag comes down: the second of two back-to-back starts is ignored. */
  lemma SecondQuestionIgnored(a: Asking, text: string, again: string, hasKey: bool, keyAgain: bool)
    requires StartQuestion(a, text, hasKey).1.Send? || StartFeedback(a, text, hasKey).1.Send?
    ensures StartQuestion(a, text, hasKey).1.Send? ==>
      StartQuestion(StartQuestion(a, text, hasKey).0, again, keyAgain) == (StartQuestion(a, text, hasKey).0, Ignored)
    ensures StartFeedback(a, text, hasKey).1.Send? ==>
      StartQuestion(StartFeedback(a, text, hasKey).0, again, keyAgain) == (StartFeedback(a, text, hasKey).0, Ignored)
  {
  }

  /** Only the end of a long text counts: two texts with the same last 500
      trimmed characters get the same question request. */
  lemma QuestionSeesOnlyTheEnd(a: Asking, x: string, y: string, hasKey: bool)
    requires |Trimmed(x)| >= SnippetLimit && |Trimmed(y)| >= SnippetLimit
    requires Trimmed(x)[|Trimmed(x)| - SnippetLimit..] == Trimmed(y)[|Trimmed(y)| - SnippetLimit..]
    ensures StartQuestion(a, x, hasKey) == StartQuestion(a, y, hasKey)
  {
  }
}

=== FILE: sections.dfy ===
/** AI-insight sections. `MarkdownSection` carries a random `id` for the
    views, but its coding keys list only `title` and `content`, so what the
    `-ai.json` sidecar holds is the id-less `Section`. */
module Sections {
  import opened Wrappers
  import Uuids

  /** The serialised form: the two coded fields. */
  datatype Section = Section(title: Option<string>, content: string)

  datatype MarkdownSection = MarkdownSection(id: Uuids.Uuid, title: Option<string>, content: string)

  /** Encoding keeps the coded fields of every section, in order. */
  function Serialize(ms: seq<MarkdownSection>): (w: seq<Section>)
    ensures |w| == |ms|
    ensures forall i :: 0 <= i < |ms| ==> w[i].title == ms[i].title && w[i].content == ms[i].content
  {
    seq(|ms|, i requires 0 <= i < |ms| => Section(ms[i].title, ms[i].content))
  }

  /** Decoding runs each section's `let id = UUID()` initialiser; the fresh
      ids are a parameter. */
  function Deserialize(w: seq<Section>, freshIds: seq<Uuids.Uuid>): (ms: seq<MarkdownSection>)
    requires |freshIds| == |w|
    ensures |ms| == |w|
    ensures forall i :: 0 <= i < |w| ==> ms[i].id == freshIds[i]
  {
    seq(|w|, i requires 0 <= i < |w| => MarkdownSection(freshIds[i], w[i].title, w[i].content))
  }

  /** A round trip through the sidecar keeps every title and content and
      replaces every id by a freshly drawn one. */
  lemma RoundTrip(ms: seq<MarkdownSection>, freshIds: seq<Uuids.Uuid>)
    requires |freshIds| == |ms|
    ensures var r := Deserialize(Serialize(ms), freshIds);
      && |r| == |ms|
      && forall i :: 0 <= i < |ms| ==> r[i] == ms[i].(id := freshIds[i])
  {
  }

  /** Decoding then encoding loses nothing of the stored form. */
  lemma SerializeDeserialize(w: seq<Section>, freshIds: seq<Uuids.Uuid>)
    requires |freshIds| == |w|
    ensures Serialize(Deserialize(w, freshIds)) == w
  {
  }

  /** The round trip is the identity exactly when the fresh ids happen to
      equal the old ones. */
  lemma RoundTripIdentityIff(ms: seq<MarkdownSection>, freshIds: seq<Uuids.Uuid>)
    requires |freshIds| == |ms|
    ensures Deserialize(Serialize(ms), freshIds) == ms
            <==> forall i :: 0 <= i < |ms| ==> freshIds[i] == ms[i].id
  {
    var r := Deserialize(Serialize(ms), freshIds);
    if forall i :: 0 <= i < |ms| ==> freshIds[i] == ms[i].id {
      assert forall i :: 0 <= i < |ms| ==> r[i] == ms[i];
    }
    if r == ms {
      assert forall i :: 0 <= i < |ms| ==> r[i].id == ms[i].id;
    }
  }
}

=== FILE: stats.dfy ===
/** The numbers the calendar and the stats panel show: the word count of
    the editor text and the current writing streak. Days are integers (the
    day number of the calendar date an entry was created on); time zones
    and `Calendar` arithmetic are not part of the model. */
module Stats {
  import opened Text
  import Timestamps
  import opened Entries
  import opened Wrappers

  // ---------------------------------------------------------------------------
  // Words

  /** `wordCount`: the pieces left when the text is split at whitespace and
      newlines, empty pieces dropped. It is zero exactly on blank text. */
  function WordCount(text: string): (n: nat)
    ensures n == 0 <==> AllIn(text, Whitespace)
  {
    BlankSplit(text);
    |Split(text, Whitespace)|
  }

  /** Text splits into no words exactly when it is blank. */
  lemma BlankSplit(text: string)
    ensures AllIn(text, Whitespace) <==> Split(text, Whitespace) == []
  {
    if AllIn(text, Whitespace) {
      SplitAllIn(text, Whitespace);
    } else {
      SplitBlank(text, Whitespace);
    }
  }

  /** Words written with single spaces between them are counted one each. */
  lemma WordCountOfWords(words: seq<string>)
    requires forall i :: 0 <= i < |words| ==> words[i] != [] && NoneIn(words[i], Whitespace)
    ensures WordCount(Join(words, " ")) == |words|
  {
    SplitJoin(words, ' ', Whitespace);
  }

  /** Words on either side of a whitespace character add up. */
  lemma WordCountAdds(a: string, c: char, b: string)
    requires In(Whitespace, c)
    ensures WordCount(a + [c] + b) == WordCount(a) + WordCount(b)
  {
    SplitAtSeparator(a, c, b, Whitespace);
  }

  // ---------------------------------------------------------------------------
  // Day numbers

  /** Days from 1 January of year 1 to 1 January of year `y`, in the
      proleptic Gregorian calendar. */
  function DaysBeforeYear(y: nat): int {
    var p := y - 1;
    365 * p + p / 4 - p / 100 + p / 400
  }

  /** Days of year `y` before the first of month `m`. */
  function DaysBeforeMonth(y: nat, m: nat): nat {
    if m <= 1 then 0 else DaysBeforeMonth(y, m - 1) + Timestamps.DaysInMonth(y, m - 1)
  }

  /** The day an instant falls on, counted from 1 January of year 1. */
  function DayNumber(t: Timestamps.Timestamp): int {
    DaysBeforeYear(t.year) + DaysBeforeMonth(t.year, t.month) + t.day - 1
  }

  /** The calendar date after the one `t` falls on. */
  function Tomorrow(t: Timestamps.Timestamp): (u: Timestamps.Timestamp)
    requires Timestamps.Valid(t)
    ensures t.year < 9999 ==> Timestamps.Valid(u)
    ensures Timestamps.Before(t, u)
  {
    if t.day < Timestamps.DaysInMonth(t.year, t.month) then t.(day := t.day + 1)
    else if t.month < 12 then t.(month := t.month + 1, day := 1)
    else t.(year := t.year + 1, month := 1, day := 1)
  }

  /** A year has 366 days when it is a leap year and 365 otherwise. */
  lemma YearLength(y: nat)
    requires y >= 1
    ensures DaysBeforeYear(y + 1) - DaysBeforeYear(y)
            == DaysBeforeMonth(y, 12) + Timestamps.DaysInMonth(y, 12)
  {
    DaysBeforeDecember(y);
    LeapDivisions(y);
  }

  /** Going from year `y - 1` to `y` adds one to each count of multiples
      exactly when `y` is such a multiple. */
  lemma LeapDivisions(y: nat)
    requires y >= 1
    ensures y / 4 == (y - 1) / 4 + (if y % 4 == 0 then 1 else 0)
    ensures y / 100 == (y - 1) / 100 + (if y % 100 == 0 then 1 else 0)
    ensures y / 400 == (y - 1) / 400 + (if y % 400 == 0 then 1 else 0)
  {
  }

  lemma DaysBeforeDecember(y: nat)
    ensures DaysBeforeMonth(y, 12) == 334 + (if Timestamps.IsLeapYear(y) then 1 else 0)
  {
    var feb := Timestamps.DaysInMonth(y, 2);
    assert DaysBeforeMonth(y, 2) == 31;
    assert DaysBeforeMonth(y, 3) == 31 + feb;
    assert DaysBeforeMonth(y, 4) == 62 + feb;
    assert DaysBeforeMonth(y, 5) == 92 + feb;
    assert DaysBeforeMonth(y, 6) == 123 + feb;
    assert DaysBeforeMonth(y, 7) == 153 + feb;
    assert DaysBeforeMonth(y, 8) == 184 + feb;
    assert DaysBeforeMonth(y, 9) == 215 + feb;
    assert DaysBeforeMonth(y, 10) == 245 + feb;
    assert DaysBeforeMonth(y, 11) == 276 + feb;
  }

  /** Consecutive calendar dates have consecutive day numbers, which is
      what makes "the day before" a subtraction of one. */
  lemma DayNumberTomorrow(t: Timestamps.Timestamp)
    requires Timestamps.Valid(t)
    ensures DayNumber(Tomorrow(t)) == DayNumber(t) + 1
  {
    if t.day == Timestamps.DaysInMonth(t.year, t.month) && t.month == 12 {
      YearLength(t.year);
    }
  }

  /** `entryDates`: the day of each entry. */
  function EntryDays(es: seq<Entry>): (ds: seq<int>)
    ensures |ds| == |es|
    ensures forall i :: 0 <= i < |es| ==> ds[i] == DayNumber(es[i].created)
  {
    seq(|es|, i requires 0 <= i < |es| => DayNumber(es[i].created))
  }

  // ---------------------------------------------------------------------------
  // The streak

  /** Newest day first, no day twice. */
  predicate StrictlyDescending(ds: seq<int>) {
    forall i, j :: 0 <= i < j < |ds| ==> ds[i] > ds[j]
  }

  function InsertDay(d: int, ds: seq<int>): (r: seq<int>)
    requires StrictlyDescending(ds)
    ensures StrictlyDescending(r)
    ensures forall x :: x in r <==> x == d || x in ds
  {
    if ds == [] || d > ds[0] then
      DescendingCons(d, ds);
      [d] + ds
    else if d == ds[0] then ds
    else
      assert ds == [ds[0]] + ds[1..];
      var tail := InsertDay(d, ds[1..]);
      assert forall x :: x in tail ==> x < ds[0];
      DescendingCons(ds[0], tail);
      [ds[0]] + tail
  }

  /** A day may go in front of a descending list when it is later than the
      list's first day. */
  lemma DescendingCons(d: int, ds: seq<int>)
    requires StrictlyDescending(ds)
    requires ds == [] || d > ds[0]
    ensures StrictlyDescending([d] + ds)
  {
    var r := [d] + ds;
    forall i, j | 0 <= i < j < |r| ensures r[i] > r[j] {
      if i == 0 && j > 1 {
        assert ds[0] > ds[j - 1];
      }
    }
  }

  /** `entryDates.sorted(by: >)`: the distinct days, newest first. */
  function DistinctDescending(days: seq<int>): (r: seq<int>)
    ensures StrictlyDescending(r)
    ensures forall x :: x in r <==> x in days
  {
    if days == [] then [] else InsertDay(days[0], DistinctDescending(days[1..]))
  }

  /** The day the streak counts back from: today when the latest entry day
      is today, yesterday when it is yesterday, and none otherwise (also
      when some entry is dated after today). */
  function Anchor(days: seq<int>, today: int): (a: Option<int>)
    ensures a.Some? <==>
      exists d :: d in days && (d == today || d == today - 1) && forall x :: x in days ==> x <= d
    ensures a.Some? ==> a.value in days && forall x :: x in days ==> x <= a.value
    ensures a.Some? ==> (a.value == today || (a.value == today - 1 && today !in days))
  {
    var ds := DistinctDescending(days);
    if ds == [] then None
    else
      assert forall x :: x in days ==> x <= ds[0] by {
        forall x | x in days ensures x <= ds[0] {
          var m :| 0 <= m < |ds| && ds[m] == x;
        }
      }
      assert ds[0] in days;
      if ds[0] == today || ds[0] == today - 1 then Some(ds[0]) else None
  }

  /** Every one of the `n` days ending at `start` has an entry. */
  predicate RunOf(days: seq<int>, start: int, n: nat) {
    forall d :: start - n < d <= start ==> d in days
  }

  /** The loop of `currentStreak` after its first match: one for the start
      day, then one more for each following element of the sorted days
      that is exactly the day before the previous one. */
  method CountBack(ds: seq<int>, start: int) returns (streak: nat)
    requires StrictlyDescending(ds) && ds != [] && ds[0] == start
    ensures 1 <= streak <= |ds|
    ensures RunOf(ds, start, streak) && start - streak !in ds
  {
    streak := 1;
    var current := start;
    var i := 1;
    while i < |ds|
      invariant 1 <= i <= |ds| && streak == i && current == start - (i - 1)
      invariant forall k :: 0 <= k < i ==> ds[k] == start - k
    {
      if ds[i] == current - 1 {
        streak := streak + 1;
        current := current - 1;
      } else {
        forall m | 0 <= m < |ds| ensures ds[m] != start - i {
          if m >= i {
            assert ds[m] <= ds[i] && ds[i] < ds[i - 1];
          }
        }
        break;
      }
      i := i + 1;
    }
    forall d | start - streak < d <= start ensures d in ds {
      assert ds[start - d] == d;
    }
  }

  /** `currentStreak`: the number of consecutive days with an entry that
      end today, or yesterday when there is none today; zero when the
      latest entry day is neither. `today` is the clock's day number. */
  method CurrentStreak(days: seq<int>, today: int) returns (streak: nat)
    ensures Anchor(days, today).None? <==> streak == 0
    ensures Anchor(days, today).Some? ==>
      var a := Anchor(days, today).value;
      RunOf(days, a, streak) && a - streak !in days
  {
    var sorted := DistinctDescending(days);
    if sorted == [] {
      return 0;
    }
    if sorted[0] == today {
      streak := CountBack(sorted, today);
    } else if sorted[0] == today - 1 {
      streak := CountBack(sorted, today - 1);
    } else {
      return 0;
    }
  }

  /** The streak the contract describes is unique: two run lengths that
      both stop at a day without an entry are equal. */
  lemma StreakDetermined(days: seq<int>, a: int, n: nat, m: nat)
    requires RunOf(days, a, n) && a - n !in days
    requires RunOf(days, a, m) && a - m !in days
    ensures n == m
  {
  }
}

=== FILE: store.dfy ===
/** The entry store of `ContentViewModel`: the in-memory entry list, the
    selection and the editor text, kept consistent with the directory of
    Markdown bodies and their insight sidecars. Every transition is a pure
    function from the state before to the state after; what the file
    system decides (which writes, removals and reads succeed) and what the
    clock and `UUID()` produce are parameters. */
module Store {
  import opened Wrappers
  import opened Moods
  import Uuids
  import Timestamps
  import FilenameCodec
  import opened Entries
  import opened Sections
  import Preview
  import opened Disk
  import Insights
  import Ordering

  datatype State = State(
    entries: seq<Entry>,
    selectedId: Option<Uuids.Uuid>,
    currentText: string,
    selectedMood: Option<Mood>,
    aiSections: seq<Section>,
    fs: Files)

  // ---------------------------------------------------------------------------
  // Invariants

  predicate UniqueIds(es: seq<Entry>) {
    forall i, j :: 0 <= i < j < |es| ==> es[i].id != es[j].id
  }

  /** Every entry's filename decodes to that entry's id, instant and mood. */
  predicate Named(es: seq<Entry>) {
    forall i :: 0 <= i < |es| ==> FilenameCodec.Decode(es[i].filename) == Some(IdentityOf(es[i]))
  }

  /** The selection, when there is one, names an entry of the list. */
  predicate SelectionValid(s: State) {
    s.selectedId.Some? ==> Contains(s.entries, s.selectedId.value)
  }

  /** What every transition below keeps. */
  predicate Valid(s: State) {
    Named(s.entries) && Ordering.NewestFirst(s.entries) && SelectionValid(s)
  }

  // ---------------------------------------------------------------------------
  // Reading a body

  /** What the editor shows when a body cannot be read: the source writes
      the escaped literal, so these are the four characters `\`, `n`, `\`,
      `n` and not two newlines. */
  const Unloadable: string := "\\n\\n"

  /** `loadEntryContent`: the body's text, or the placeholder when the body
      is missing or cannot be read. */
  function BodyText(fs: Files, env: Env, e: Entry): (t: string)
    ensures e.filename in fs && e.filename !in env.unreadable ==> t == fs[e.filename]
    ensures e.filename !in fs || e.filename in env.unreadable ==> t == Unloadable
  {
    match Read(fs, env, e.filename)
    case Contents(text) => text
    case _ => Unloadable
  }

  // ---------------------------------------------------------------------------
  // Selecting

  /** `selectEntry`: look the entry up by id; if it is there, select it,
      take the mood of the entry passed in, and load the stored entry's
      body and insight sidecar. An entry not in the list changes nothing. */
  function Select(s: State, env: Env, e: Entry): (r: State)
    ensures r.entries == s.entries && r.fs == s.fs
    ensures !Contains(s.entries, e.id) ==> r == s
    ensures Contains(s.entries, e.id) ==>
      var stored := s.entries[IndexOf(s.entries, e.id).value];
      && r.selectedId == Some(e.id)
      && r.selectedMood == Some(e.mood)
      && r.currentText == BodyText(s.fs, env, stored)
      && r.aiSections == Insights.Load(s.fs, env, stored.filename).GetOr(s.aiSections)
    ensures SelectionValid(s) ==> SelectionValid(r)
  {
    match IndexOf(s.entries, e.id)
    case None => s
    case Some(i) =>
      var stored := s.entries[i];
      s.(selectedId := Some(e.id),
         selectedMood := Some(e.mood),
         currentText := BodyText(s.fs, env, stored),
         aiSections := Insights.Load(s.fs, env, stored.filename).GetOr(s.aiSections))
  }

  /** Selecting the same entry again changes nothing more. */
  lemma SelectIdempotent(s: State, env: Env, e: Entry)
    ensures Select(Select(s, env, e), env, e) == Select(s, env, e)
  {
  }

  // ---------------------------------------------------------------------------
  // Previews

  /** `updatePreviewText`: the first entry with the id gets the preview of
      the content; nothing else changes, and an unknown id changes nothing. */
  function UpdatePreview(es: seq<Entry>, id: Uuids.Uuid, content: string): (r: seq<Entry>)
    ensures |r| == |es|
    ensures IndexOf(es, id).None? ==> r == es
    ensures IndexOf(es, id).Some? ==>
      var i := IndexOf(es, id).value;
      && r[i] == es[i].(previewText := Preview.PreviewOf(content))
      && forall j :: 0 <= j < |es| && j != i ==> r[j] == es[j]
  {
    match IndexOf(es, id)
    case None => es
    case Some(i) => es[i := es[i].(previewText := Preview.PreviewOf(content))]
  }

  /** The two lists differ at most in previews and favourite flags. */
  predicate SameKeys(a: seq<Entry>, b: seq<Entry>) {
    && |a| == |b|
    && forall j :: 0 <= j < |a| ==>
         a[j].id == b[j].id && a[j].filename == b[j].filename
         && a[j].mood == b[j].mood && a[j].created == b[j].created
  }

  /** Lists that differ only in previews and flags agree on everything the
      invariant speaks of. */
  lemma SameKeysKeep(a: seq<Entry>, b: seq<Entry>)
    requires SameKeys(a, b)
    ensures Ids(a) == Ids(b)
    ensures Named(a) ==> Named(b)
    ensures Ordering.NewestFirst(a) ==> Ordering.NewestFirst(b)
    ensures UniqueIds(a) ==> UniqueIds(b)
    ensures forall x :: Contains(a, x) <==> Contains(b, x)
    ensures forall x :: IndexOf(a, x) == IndexOf(b, x)
  {
    SameKeysLookup(a, b);
    SameKeysInvariant(a, b);
  }

  lemma SameKeysLookup(a: seq<Entry>, b: seq<Entry>)
    requires SameKeys(a, b)
    ensures Ids(a) == Ids(b)
    ensures forall x :: Contains(a, x) <==> Contains(b, x)
    ensures forall x :: IndexOf(a, x) == IndexOf(b, x)
  {
    forall x ensures IndexOf(a, x) == IndexOf(b, x) {
      if IndexOf(a, x).Some? {
        assert b[IndexOf(a, x).value].id == x;
      }
    }
  }

  lemma SameKeysInvariant(a: seq<Entry>, b: seq<Entry>)
    requires SameKeys(a, b)
    ensures Named(a) ==> Named(b)
    ensures Ordering.NewestFirst(a) ==> Ordering.NewestFirst(b)
    ensures UniqueIds(a) ==> UniqueIds(b)
  {
    assert forall j :: 0 <= j < |a| ==> IdentityOf(a[j]) == IdentityOf(b[j]);
  }

  /** A preview update changes only the preview. */
  lemma UpdatePreviewKeeps(es: seq<Entry>, id: Uuids.Uuid, content: string)
    ensures SameKeys(es, UpdatePreview(es, id, content))
  {
  }

  // ---------------------------------------------------------------------------
  // Saving

  /** The index `saveCurrentEntry` writes to: the selected entry, when the
      selection names one. */
  function SaveTarget(s: State): (r: Option<nat>)
    ensures r.Some? <==> s.selectedId.Some? && Contains(s.entries, s.selectedId.value)
    ensures r.Some? ==> r.value < |s.entries| && s.entries[r.value].id == s.selectedId.value
  {
    if s.selectedId.None? then None else IndexOf(s.entries, s.selectedId.value)
  }

  /** `saveCurrentEntry`: without a valid selection nothing changes (not
      even the editor text). Otherwise the text becomes the editor text;
      a successful write stores it as the selected body and refreshes that
      entry's preview, and a failed write changes nothing else. */
  function Save(s: State, text: string, writeOk: bool): (r: State)
    ensures SaveTarget(s).None? ==> r == s
    ensures SaveTarget(s).Some? ==>
      var i := SaveTarget(s).value;
      var e := s.entries[i];
      && r.currentText == text
      && r.selectedId == s.selectedId && r.selectedMood == s.selectedMood
      && r.aiSections == s.aiSections
      && |r.entries| == |s.entries|
      && (forall j :: 0 <= j < |s.entries| && j != i ==> r.entries[j] == s.entries[j])
      && (writeOk ==> r.entries[i] == e.(previewText := Preview.PreviewOf(text))
                      && r.fs == s.fs[e.filename := text])
      && (!writeOk ==> r.entries == s.entries && r.fs == s.fs)
  {
    match SaveTarget(s)
    case None => s
    case Some(i) =>
      var e := s.entries[i];
      var t := s.(currentText := text);
      if writeOk then t.(fs := s.fs[e.filename := text], entries := UpdatePreview(s.entries, e.id, text))
      else t
  }

  // ---------------------------------------------------------------------------
  // Creating

  /** The first text of a new entry: the emoji, a blank line, the prompt of
      its mood and a newline. */
  function InitialContent(emoji: string, mood: Mood): string {
    emoji + "\n\n" + TypePrompt(mood) + "\n"
  }

  /** `finalizeEntryCreation`: the initial text goes into the editor first,
      whatever happens next. If the body is written, the new entry goes in
      front of the list with the preview of that text, becomes selected
      with its mood, and the insights on screen are cleared; if the write
      fails, nothing else changes. The id and the clock reading are
      parameters. */
  function Create(s: State, mood: Mood, emoji: string, id: Uuids.Uuid, now: Timestamps.Timestamp, writeOk: bool)
    : (r: State)
    requires Timestamps.Valid(now)
    ensures r.currentText == InitialContent(emoji, mood)
    ensures !writeOk ==> r == s.(currentText := InitialContent(emoji, mood))
    ensures writeOk ==> |r.entries| == |s.entries| + 1 && r.entries[1..] == s.entries
    ensures writeOk ==>
      var e := r.entries[0];
      && e.id == id && e.mood == mood && e.created == now && !e.isFavorite
      && FilenameCodec.Decode(e.filename) == Some(FilenameCodec.Identity(id, now, mood))
      && e.previewText == Preview.PreviewOf(InitialContent(emoji, mood))
      && r.fs == s.fs[e.filename := InitialContent(emoji, mood)]
      && r.selectedId == Some(id) && r.selectedMood == Some(mood) && r.aiSections == []
  {
    var e := CreateNew(mood, id, now);
    var content := InitialContent(emoji, mood);
    var t := s.(currentText := content);
    if !writeOk then t
    else
      var es := UpdatePreview([e] + s.entries, id, content);
      assert IndexOf([e] + s.entries, id) == Some(0);
      assert es[1..] == s.entries;
      t.(entries := es, selectedId := Some(id), selectedMood := Some(mood), aiSections := [],
         fs := s.fs[e.filename := content])
  }

  // ---------------------------------------------------------------------------
  // Deleting

  /** The list without its `i`-th entry. */
  function RemoveAt(es: seq<Entry>, i: nat): (r: seq<Entry>)
    requires i < |es|
    ensures |r| == |es| - 1
    ensures forall j :: 0 <= j < i ==> r[j] == es[j]
    ensures forall j :: i <= j < |r| ==> r[j] == es[j + 1]
  {
    es[..i] + es[i + 1..]
  }

  /** The directory once `deleteEntry` has removed the body and, if the
      body went, its sidecar. A body that is already gone counts as
      removed; a sidecar that cannot be removed is left behind. */
  function RemoveFiles(fs: Files, body: string, sidecarRemoveOk: bool): (r: Files)
    ensures body !in r
    ensures sidecarRemoveOk && FilenameCodec.AiFilename(body).Some? ==> FilenameCodec.AiFilename(body).value !in r
    ensures forall k :: k != body && Some(k) != FilenameCodec.AiFilename(body) ==>
      (k in r <==> k in fs) && (k in r ==> r[k] == fs[k])
  {
    var fs1 := fs - {body};
    match FilenameCodec.AiFilename(body)
    case None => fs1
    case Some(side) => Remove(fs1, side, sidecarRemoveOk)
  }

  /** `deleteEntry` as written. An entry whose id is not in the list changes
      nothing. Otherwise the first entry with that id leaves the list. When
      the body is present and cannot be removed, the catch path runs: the
      sidecar stays, and if the deleted entry was selected the first
      remaining entry is selected, or, with none left, only the insights
      on screen are cleared while the selection keeps naming the deleted
      entry. */
  function DeleteAsWritten(s: State, env: Env, target: Entry, bodyRemoveOk: bool, sidecarRemoveOk: bool)
    : (r: State)
    ensures !Contains(s.entries, target.id) ==> r == s
    ensures Contains(s.entries, target.id) ==>
      && r.entries == RemoveAt(s.entries, IndexOf(s.entries, target.id).value)
      && (target.filename in s.fs && !bodyRemoveOk ==> r.fs == s.fs)
      && (target.filename !in s.fs || bodyRemoveOk ==>
            r.fs == RemoveFiles(s.fs, target.filename, sidecarRemoveOk))
      && (s.selectedId != Some(target.id) ==>
            && r.selectedId == s.selectedId && r.selectedMood == s.selectedMood
            && r.currentText == s.currentText && r.aiSections == s.aiSections)
      && (s.selectedId == Some(target.id) && r.entries != [] ==>
            && r.selectedId == Some(r.entries[0].id) && r.selectedMood == Some(r.entries[0].mood)
            && r.currentText == BodyText(r.fs, env, r.entries[0])
            && r.aiSections == Insights.Load(r.fs, env, r.entries[0].filename).GetOr(s.aiSections))
      && (s.selectedId == Some(target.id) && r.entries == [] && (target.filename !in s.fs || bodyRemoveOk) ==>
            && r.selectedId.None? && r.selectedMood.None? && r.currentText == []
            && r.aiSections == s.aiSections)
      && (s.selectedId == Some(target.id) && r.entries == [] && target.filename in s.fs && !bodyRemoveOk ==>
            && r.selectedId == s.selectedId && r.selectedMood == s.selectedMood
            && r.currentText == s.currentText && r.aiSections == [])
  {
    match IndexOf(s.entries, target.id)
    case None => s
    case Some(i) =>
      var rest := RemoveAt(s.entries, i);
      var wasSelected := s.selectedId == Some(target.id);
      if target.filename in s.fs && !bodyRemoveOk then
        var t := s.(entries := rest);
        if !wasSelected then t
        else if rest != [] then Select(t, env, rest[0])
        else t.(aiSections := [])
      else
        var t := s.(entries := rest, fs := RemoveFiles(s.fs, target.filename, sidecarRemoveOk));
        if !wasSelected then t
        else
          var cleared := t.(selectedId := None, currentText := [], selectedMood := None);
          if rest != [] then Select(cleared, env, rest[0]) else cleared
  }

  /** Deleting the only entry, selected, when its body cannot be removed:
      the list is empty but the selection still names the deleted entry. */
  lemma DeleteAsWrittenLeavesStaleSelection(s: State, env: Env, target: Entry, sidecarRemoveOk: bool)
    requires s.entries == [target] && s.selectedId == Some(target.id)
    requires target.filename in s.fs
    ensures var r := DeleteAsWritten(s, env, target, false, sidecarRemoveOk);
      r.entries == [] && r.selectedId == Some(target.id) && !SelectionValid(r)
  {
    assert IndexOf(s.entries, target.id) == Some(0);
  }

  /** `deleteEntry` with the catch path clearing the selection the way the
      main path does, so that the selection always names a listed entry. */
  function Delete(s: State, env: Env, target: Entry, bodyRemoveOk: bool, sidecarRemoveOk: bool)
    : (r: State)
    ensures !Contains(s.entries, target.id) ==> r == s
    ensures Contains(s.entries, target.id) ==>
      var i := IndexOf(s.entries, target.id).value;
      && r.entries == RemoveAt(s.entries, i)
      && (target.filename in s.fs && !bodyRemoveOk ==> r.fs == s.fs)
      && (target.filename !in s.fs || bodyRemoveOk ==>
            r.fs == RemoveFiles(s.fs, target.filename, sidecarRemoveOk))
      && (s.selectedId != Some(target.id) ==>
            && r.selectedId == s.selectedId && r.selectedMood == s.selectedMood
            && r.currentText == s.currentText && r.aiSections == s.aiSections)
      && (s.selectedId == Some(target.id) && r.entries != [] ==>
            && r.selectedId == Some(r.entries[0].id) && r.selectedMood == Some(r.entries[0].mood)
            && r.currentText == BodyText(r.fs, env, r.entries[0])
            && r.aiSections == Insights.Load(r.fs, env, r.entries[0].filename).GetOr(s.aiSections))
      && (s.selectedId == Some(target.id) && r.entries == [] ==>
            && r.selectedId.None? && r.selectedMood.None? && r.currentText == []
            && r.aiSections == if target.filename in s.fs && !bodyRemoveOk then [] else s.aiSections)
  {
    var r := DeleteAsWritten(s, env, target, bodyRemoveOk, sidecarRemoveOk);
    if IndexOf(s.entries, target.id).Some? && r.entries == [] && s.selectedId == Some(target.id) then
      r.(selectedId := None, currentText := [], selectedMood := None)
    else r
  }

  /** The directory after a delete: the body is gone unless its removal
      failed, the sidecar is gone when both removals succeed, and no other
      file changes. */
  lemma DeleteFiles(s: State, env: Env, target: Entry, bodyRemoveOk: bool, sidecarRemoveOk: bool)
    requires Contains(s.entries, target.id)
    ensures var r := Delete(s, env, target, bodyRemoveOk, sidecarRemoveOk);
      && (bodyRemoveOk ==> target.filename !in r.fs)
      && (bodyRemoveOk && sidecarRemoveOk && FilenameCodec.AiFilename(target.filename).Some? ==>
            FilenameCodec.AiFilename(target.filename).value !in r.fs)
      && forall k :: k != target.filename && Some(k) != FilenameCodec.AiFilename(target.filename) ==>
            (k in r.fs <==> k in s.fs) && (k in r.fs ==> r.fs[k] == s.fs[k])
  {
    var r := Delete(s, env, target, bodyRemoveOk, sidecarRemoveOk);
    if target.filename in s.fs && !bodyRemoveOk {
      assert r.fs == s.fs;
    } else {
      assert r.fs == RemoveFiles(s.fs, target.filename, sidecarRemoveOk);
    }
  }

  /** With ids unique, the deleted id is gone and every other entry stays,
      in order. */
  lemma DeleteRemovesExactlyOne(s: State, env: Env, target: Entry, bodyRemoveOk: bool, sidecarRemoveOk: bool)
    requires UniqueIds(s.entries) && Contains(s.entries, target.id)
    ensures var r := Delete(s, env, target, bodyRemoveOk, sidecarRemoveOk);
      && |r.entries| == |s.entries| - 1
      && !Contains(r.entries, target.id)
      && UniqueIds(r.entries)
      && forall x :: x != target.id ==> (Contains(r.entries, x) <==> Contains(s.entries, x))
  {
    RemoveAtKeeps(s.entries, IndexOf(s.entries, target.id).value);
  }

  /** Deleting an id that is already gone does nothing: delete is
      idempotent once ids are unique. */
  lemma DeleteTwice(s: State, env: Env, target: Entry, b1: bool, s1: bool, b2: bool, s2: bool)
    requires UniqueIds(s.entries)
    ensures var r := Delete(s, env, target, b1, s1);
      Delete(r, env, target, b2, s2) == r
  {
    if Contains(s.entries, target.id) {
      DeleteRemovesExactlyOne(s, env, target, b1, s1);
    }
  }

  // ---------------------------------------------------------------------------
  // Favourites

  /** `toggleFavorite`: the first entry with the id flips its flag; every
      other field and entry stays, and an unknown id changes nothing. */
  function ToggleFavorite(s: State, id: Uuids.Uuid): (r: State)
    ensures r == s.(entries := r.entries)
    ensures |r.entries| == |s.entries|
    ensures forall j :: 0 <= j < |s.entries| ==>
      r.entries[j] == if IndexOf(s.entries, id) == Some(j)
                      then s.entries[j].(isFavorite := !s.entries[j].isFavorite)
                      else s.entries[j]
  {
    match IndexOf(s.entries, id)
    case None => s
    case Some(i) => s.(entries := s.entries[i := s.entries[i].(isFavorite := !s.entries[i].isFavorite)])
  }

  /** Toggling twice restores the state. */
  lemma ToggleTwice(s: State, id: Uuids.Uuid)
    ensures ToggleFavorite(ToggleFavorite(s, id), id) == s
  {
    var r := ToggleFavorite(s, id);
    SameKeysKeep(s.entries, r.entries);
    var rr := ToggleFavorite(r, id);
    assert rr.entries == s.entries;
  }

  // ---------------------------------------------------------------------------
  // Loading

  /** The entries the loader builds from a directory listing, in listing
      order: one for each name that decodes, and nothing for the rest. */
  function Decoded(listing: seq<string>): (r: seq<Entry>)
    ensures forall e :: e in r ==> e.filename in listing && FromFilename(e.filename) == Some(e)
    ensures forall n :: n in listing && FilenameCodec.Decode(n).Some? ==> FromFilename(n).value in r
  {
    if listing == [] then []
    else
      var rest := Decoded(listing[1..]);
      assert forall n :: n in listing[1..] ==> n in listing;
      match FromFilename(listing[0])
      case None => rest
      case Some(e) => [e] + rest
  }

  /** `loadExistingEntries`. A listing that fails empties the list and the
      selection. Otherwise the list becomes the decodable names, newest
      first; with none, the selection is cleared; with a missing or stale
      selection, the first entry is selected; with a valid one, only its
      body is read again. The listing is a parameter (the directory's
      order is unspecified), as is whether it succeeds. */
  function Load(s: State, env: Env, listing: seq<string>, listOk: bool): (r: State)
    ensures r.fs == s.fs
    ensures !listOk ==>
      r == s.(entries := [], currentText := [], selectedId := None, selectedMood := None)
    ensures listOk ==>
      && multiset(r.entries) == multiset(Decoded(listing))
      && Ordering.NewestFirst(r.entries)
    ensures listOk && r.entries == [] ==>
      r.currentText == [] && r.selectedId.None? && r.selectedMood.None? && r.aiSections == s.aiSections
    ensures listOk && r.entries != [] && (s.selectedId.None? || !Contains(r.entries, s.selectedId.value)) ==>
      && r.selectedId == Some(r.entries[0].id)
      && r.selectedMood == Some(r.entries[0].mood)
      && r.currentText == BodyText(s.fs, env, r.entries[0])
      && r.aiSections == Insights.Load(s.fs, env, r.entries[0].filename).GetOr(s.aiSections)
    ensures listOk && s.selectedId.Some? && Contains(r.entries, s.selectedId.value) ==>
      && r.selectedId == s.selectedId && r.selectedMood == s.selectedMood
      && r.aiSections == s.aiSections
      && r.currentText == BodyText(s.fs, env, r.entries[IndexOf(r.entries, s.selectedId.value).value])
  {
    if !listOk then s.(entries := [], currentText := [], selectedId := None, selectedMood := None)
    else
      var es := Ordering.SortNewestFirst(Decoded(listing));
      var t := s.(entries := es);
      if es == [] then t.(currentText := [], selectedId := None, selectedMood := None)
      else if s.selectedId.None? || IndexOf(es, s.selectedId.value).None? then
        assert IndexOf(es, es[0].id) == Some(0);
        Select(t, env, es[0])
      else t.(currentText := BodyText(s.fs, env, es[IndexOf(es, s.selectedId.value).value]))
  }

  /** A load lists exactly the decodable names, each once per listing
      entry, showing the loading placeholder and not marked favourite. */
  lemma LoadEntries(s: State, env: Env, listing: seq<string>)
    ensures var r := Load(s, env, listing, true);
      && (forall e :: e in r.entries ==>
            e.filename in listing && FromFilename(e.filename) == Some(e)
            && e.previewText == Preview.Loading && !e.isFavorite)
      && (forall n :: n in listing && FilenameCodec.Decode(n).Some? ==> FromFilename(n).value in r.entries)
  {
    var r := Load(s, env, listing, true);
    forall e | e in r.entries ensures e in Decoded(listing) {
      assert e in multiset(r.entries);
    }
    forall n | n in listing && FilenameCodec.Decode(n).Some? ensures FromFilename(n).value in r.entries {
      assert FromFilename(n).value in multiset(Decoded(listing));
    }
  }

  // ---------------------------------------------------------------------------
  // The invariant holds throughout

  lemma LoadValid(s: State, env: Env, listing: seq<string>, listOk: bool)
    ensures Valid(Load(s, env, listing, listOk))
  {
    var r := Load(s, env, listing, listOk);
    if listOk {
      LoadEntries(s, env, listing);
      forall i | 0 <= i < |r.entries|
        ensures FilenameCodec.Decode(r.entries[i].filename) == Some(IdentityOf(r.entries[i]))
      {
        assert r.entries[i] in r.entries;
      }
      if r.entries != [] && r.selectedId.Some? {
        assert r.entries[0].id == r.entries[0].id;
      }
    }
  }

  lemma SelectValid(s: State, env: Env, e: Entry)
    requires Valid(s)
    ensures Valid(Select(s, env, e))
  {
  }

  lemma SaveValid(s: State, text: string, writeOk: bool)
    requires Valid(s)
    ensures Valid(Save(s, text, writeOk))
  {
    if SaveTarget(s).Some? && writeOk {
      UpdatePreviewKeeps(s.entries, s.selectedId.value, text);
      SameKeysKeep(s.entries, UpdatePreview(s.entries, s.selectedId.value, text));
    }
  }

  /** A new entry keeps the list valid when it is at least as new as every
      listed entry; it keeps ids unique when its id is fresh. */
  lemma CreateValid(s: State, mood: Mood, emoji: string, id: Uuids.Uuid, now: Timestamps.Timestamp, writeOk: bool)
    requires Timestamps.Valid(now) && Valid(s)
    requires forall j :: 0 <= j < |s.entries| ==> !Timestamps.Before(now, s.entries[j].created)
    ensures Valid(Create(s, mood, emoji, id, now, writeOk))
  {
    var r := Create(s, mood, emoji, id, now, writeOk);
    if writeOk {
      var e := r.entries[0];
      assert r.entries == [e] + s.entries;
      Ordering.NewestFirstCons(e, s.entries);
      forall j | 0 <= j < |r.entries|
        ensures FilenameCodec.Decode(r.entries[j].filename) == Some(IdentityOf(r.entries[j]))
      {
        if j > 0 { assert r.entries[j] == s.entries[j - 1]; }
      }
      assert r.entries[0].id == id;
    }
  }

  /** A fresh id keeps ids unique. */
  lemma CreateUnique(s: State, mood: Mood, emoji: string, id: Uuids.Uuid, now: Timestamps.Timestamp, writeOk: bool)
    requires Timestamps.Valid(now)
    requires UniqueIds(s.entries) && !Contains(s.entries, id)
    ensures UniqueIds(Create(s, mood, emoji, id, now, writeOk).entries)
  {
    var r := Create(s, mood, emoji, id, now, writeOk);
    if writeOk {
      assert forall j :: 1 <= j < |r.entries| ==> r.entries[j] == s.entries[j - 1];
    }
  }

  /** Taking one entry out keeps the rest named and in order, and keeps
      every other id that was listed. */
  lemma RemoveAtKeeps(es: seq<Entry>, i: nat)
    requires i < |es|
    ensures Named(es) ==> Named(RemoveAt(es, i))
    ensures Ordering.NewestFirst(es) ==> Ordering.NewestFirst(RemoveAt(es, i))
    ensures forall x :: x != es[i].id && Contains(es, x) ==> Contains(RemoveAt(es, i), x)
    ensures forall x :: Contains(RemoveAt(es, i), x) ==> Contains(es, x)
    ensures UniqueIds(es) ==> UniqueIds(RemoveAt(es, i)) && !Contains(RemoveAt(es, i), es[i].id)
  {
    var r := RemoveAt(es, i);
    forall x | Contains(r, x) ensures Contains(es, x) {
      var j :| 0 <= j < |r| && r[j].id == x;
      if j < i { assert es[j].id == x; } else { assert es[j + 1].id == x; }
    }
    if UniqueIds(es) {
      forall a, b | 0 <= a < b < |r| ensures r[a].id != r[b].id {
        var a' := if a < i then a else a + 1;
        var b' := if b < i then b else b + 1;
        assert r[a] == es[a'] && r[b] == es[b'];
      }
    }
    forall x | x != es[i].id && Contains(es, x) ensures Contains(r, x) {
      var j :| 0 <= j < |es| && es[j].id == x;
      if j < i { assert r[j].id == x; } else { assert r[j - 1].id == x; }
    }
  }

  lemma DeleteValid(s: State, env: Env, target: Entry, bodyRemoveOk: bool, sidecarRemoveOk: bool)
    requires Valid(s)
    ensures Valid(Delete(s, env, target, bodyRemoveOk, sidecarRemoveOk))
  {
    if Contains(s.entries, target.id) {
      var i := IndexOf(s.entries, target.id).value;
      RemoveAtKeeps(s.entries, i);
    }
  }

  lemma ToggleValid(s: State, id: Uuids.Uuid)
    requires Valid(s)
    ensures Valid(ToggleFavorite(s, id))
  {
    SameKeysKeep(s.entries, ToggleFavorite(s, id).entries);
  }
}

=== FILE: text.dfy ===
/** String primitives of Foundation and the Swift standard library that the
    entry store relies on: character classes, trimming, splitting, joining,
    prefix tests and substring search. Strings are sequences of Unicode scalar
    values; Swift's grapheme clustering is not modelled. */
module Text {
  import opened Wrappers

  /** The three character sets the store trims and splits with. */
  datatype CharClass =
    | Spaces       // CharacterSet.whitespaces: tab and the space separators (Zs)
    | Newlines     // Character.isNewline
    | Whitespace   // CharacterSet.whitespacesAndNewlines, which is also Character.isWhitespace

  predicate IsNewline(c: char) {
    c == '\n' || c == '\U{000B}' || c == '\U{000C}' || c == '\r'
    || c == '\U{0085}' || c == '\U{2028}' || c == '\U{2029}'
  }

  predicate IsSpace(c: char) {
    c == ' ' || c == '\t' || c == '\U{00A0}' || c == '\U{1680}'
    || ('\U{2000}' <= c <= '\U{200A}') || c == '\U{202F}' || c == '\U{205F}' || c == '\U{3000}'
  }

  predicate In(k: CharClass, c: char) {
    match k
    case Spaces => IsSpace(c)
    case Newlines => IsNewline(c)
    case Whitespace => IsSpace(c) || IsNewline(c)
  }

  /** Every character of `s` belongs to `k`. */
  predicate AllIn(s: string, k: CharClass) {
    forall i :: 0 <= i < |s| ==> In(k, s[i])
  }

  /** No character of `s` belongs to `k`. */
  predicate NoneIn(s: string, k: CharClass) {
    forall i :: 0 <= i < |s| ==> !In(k, s[i])
  }

  // ---------------------------------------------------------------------------
  // Trimming: `trimmingCharacters(in:)`
  //
  // The trimming functions carry no postconditions of their own: their facts
  // are lemmas, called where needed, so that every text they appear in does
  // not drag the facts into the proof.

  function TrimStart(s: string, k: CharClass): string {
    if s != [] && In(k, s[0]) then TrimStart(s[1..], k) else s
  }

  function TrimEnd(s: string, k: CharClass): string {
    if s != [] && In(k, s[|s| - 1]) then TrimEnd(s[..|s| - 1], k) else s
  }

  /** Drops the leading and the trailing run of `k` characters. */
  function Trim(s: string, k: CharClass): string {
    TrimEnd(TrimStart(s, k), k)
  }

  /** `TrimStart` keeps a suffix, and what it drops is all in the class. */
  lemma {:induction false} TrimStartFacts(s: string, k: CharClass)
    ensures var r := TrimStart(s, k);
      && |r| <= |s| && r == s[|s| - |r|..]
      && (r == [] || !In(k, r[0]))
      && AllIn(s[..|s| - |r|], k)
  {
    if s != [] && In(k, s[0]) {
      TrimStartFacts(s[1..], k);
      var r := TrimStart(s, k);
      var n := |s| - |r|;
      assert s[1..][..n - 1] == s[1..n];
      assert forall i :: 1 <= i < n ==> s[..n][i] == s[1..][..n - 1][i - 1];
    }
  }

  /** `TrimEnd` keeps a prefix, and what it drops is all in the class. */
  lemma {:induction false} TrimEndFacts(s: string, k: CharClass)
    ensures var r := TrimEnd(s, k);
      && |r| <= |s| && r == s[..|r|]
      && (r == [] || !In(k, r[|r| - 1]))
      && AllIn(s[|r|..], k)
  {
    if s != [] && In(k, s[|s| - 1]) {
      var t := s[..|s| - 1];
      TrimEndFacts(t, k);
      var r := TrimEnd(s, k);
      assert t[..|r|] == s[..|r|];
      assert forall i :: 0 <= i < |t| - |r| ==> s[|r|..][i] == t[|r|..][i];
    }
  }

  /** A trimmed text is no longer than the original and has neither end in the class. */
  lemma TrimFacts(s: string, k: CharClass)
    ensures var r := Trim(s, k);
      && |r| <= |s|
      && (r == [] || (!In(k, r[0]) && !In(k, r[|r| - 1])))
  {
    var a := TrimStart(s, k);
    TrimStartFacts(s, k);
    TrimEndFacts(a, k);
    var r := TrimEnd(a, k);
    if r != [] {
      assert r[0] == a[0];
    }
  }

  /** A trimmed text is the stretch of the original that starts where the
      leading run ends, with only class characters on either side of it. */
  lemma TrimSlice(s: string, k: CharClass)
    ensures var r := Trim(s, k); var a := |s| - |TrimStart(s, k)|;
      && 0 <= a <= |s| - |r| && r == s[a..a + |r|]
      && AllIn(s[..a], k) && AllIn(s[a + |r|..], k)
  {
    var b := TrimStart(s, k);
    TrimStartFacts(s, k);
    TrimEndFacts(b, k);
    var r := TrimEnd(b, k);
    var a := |s| - |b|;
    assert r == s[a..a + |r|];
    assert s[a + |r|..] == b[|r|..];
  }

  /** Trimming never introduces a character. */
  lemma TrimKeepsOut(s: string, k: CharClass, c: char)
    requires c !in s
    ensures c !in Trim(s, k)
  {
    var a := TrimStart(s, k);
    TrimStartFacts(s, k);
    TrimEndFacts(a, k);
    var r := TrimEnd(a, k);
    forall j | 0 <= j < |r| ensures r[j] != c {
      assert r[j] == a[j];
      assert a[j] == s[|s| - |a| + j];
    }
  }

  /** Trimming removes everything exactly when everything is in the class. */
  lemma TrimEmptyIff(s: string, k: CharClass)
    ensures Trim(s, k) == [] <==> AllIn(s, k)
  {
    var a := TrimStart(s, k);
    TrimStartFacts(s, k);
    TrimEndFacts(a, k);
    if Trim(s, k) == [] {
      assert a == [];
      assert s[..|s|] == s;
    }
  }

  lemma TrimStartNoop(s: string, k: CharClass)
    requires s == [] || !In(k, s[0])
    ensures TrimStart(s, k) == s
  {
  }

  lemma TrimEndNoop(s: string, k: CharClass)
    requires s == [] || !In(k, s[|s| - 1])
    ensures TrimEnd(s, k) == s
  {
  }

  lemma TrimNoop(s: string, k: CharClass)
    requires s == [] || (!In(k, s[0]) && !In(k, s[|s| - 1]))
    ensures Trim(s, k) == s
  {
    TrimStartNoop(s, k);
    TrimEndNoop(s, k);
  }

  /** A leading run inside the class is trimmed away whatever follows it. */
  lemma {:induction false} TrimStartSkip(a: string, b: string, k: CharClass)
    requires AllIn(a, k)
    ensures TrimStart(a + b, k) == TrimStart(b, k)
  {
    if a != [] {
      assert (a + b)[0] == a[0] && (a + b)[1..] == a[1..] + b;
      TrimStartSkip(a[1..], b, k);
    } else {
      assert a + b == b;
    }
  }

  /** A trailing run inside the class is trimmed away whatever precedes it. */
  lemma {:induction false} TrimEndSkip(a: string, b: string, k: CharClass)
    requires AllIn(b, k)
    ensures TrimEnd(a + b, k) == TrimEnd(a, k)
  {
    if b != [] {
      var s := a + b;
      assert s[|s| - 1] == b[|b| - 1];
      assert s[..|s| - 1] == a + b[..|b| - 1];
      TrimEndSkip(a, b[..|b| - 1], k);
    } else {
      assert a + b == a;
    }
  }

  /** Trimming a text padded on both sides by class characters gives the
      text back, when its own ends are outside the class. */
  lemma TrimPadded(lead: string, core: string, trail: string, k: CharClass)
    requires AllIn(lead, k) && AllIn(trail, k)
    requires core != [] && !In(k, core[0]) && !In(k, core[|core| - 1])
    ensures Trim(lead + core + trail, k) == core
  {
    assert lead + core + trail == lead + (core + trail);
    TrimStartSkip(lead, core + trail, k);
    TrimStartNoop(core + trail, k);
    TrimEndSkip(core, trail, k);
    TrimEndNoop(core, k);
  }

  /** A trimmed string is its own trim. */
  lemma TrimIdempotent(s: string, k: CharClass)
    ensures Trim(Trim(s, k), k) == Trim(s, k)
  {
    var t := Trim(s, k);
    TrimFacts(s, k);
    TrimStartNoop(t, k);
    TrimEndNoop(t, k);
  }

  /** Trimming keeps every character outside the class. */
  lemma TrimKeeps(s: string, k: CharClass, i: nat)
    requires i < |s| && !In(k, s[i])
    ensures s[i] in Trim(s, k)
  {
    var a := TrimStart(s, k);
    TrimStartFacts(s, k);
    var off := |s| - |a|;
    assert i >= off;
    assert a[i - off] == s[i];
    var t := TrimEnd(a, k);
    TrimEndFacts(a, k);
    assert i - off < |t|;
    assert t[i - off] == s[i];
  }

  // ---------------------------------------------------------------------------
  // Character-wise rewriting

  /** `replacingOccurrences(of: "\n", with: " ")`. */
  function NewlinesToSpaces(s: string): (r: string)
    ensures |r| == |s|
    ensures forall i :: 0 <= i < |s| ==> r[i] == (if s[i] == '\n' then ' ' else s[i])
  {
    if s == [] then [] else [if s[0] == '\n' then ' ' else s[0]] + NewlinesToSpaces(s[1..])
  }

  lemma NewlinesToSpacesNoop(s: string)
    requires '\n' !in s
    ensures NewlinesToSpaces(s) == s
  {
  }

  function LowerChar(c: char): char {
    if 'A' <= c <= 'Z' then (c as int + 32) as char else c
  }

  function UpperChar(c: char): char {
    if 'a' <= c <= 'z' then (c as int - 32) as char else c
  }

  /** `lowercased()`, restricted to ASCII letters. */
  function Lower(s: string): (r: string)
    ensures |r| == |s|
    ensures forall i :: 0 <= i < |s| ==> r[i] == LowerChar(s[i])
  {
    if s == [] then [] else [LowerChar(s[0])] + Lower(s[1..])
  }

  // ---------------------------------------------------------------------------
  // Prefixes and search

  predicate StartsWith(s: string, p: string) {
    |p| <= |s| && s[..|p|] == p
  }

  predicate EndsWith(s: string, p: string) {
    |p| <= |s| && s[|s| - |p|..] == p
  }

  predicate OccursAt(s: string, p: string, i: nat) {
    i + |p| <= |s| && s[i..i + |p|] == p
  }

  /** `range(of:)`: the index of the first occurrence of `p` in `s`, if any. */
  function FindFirst(s: string, p: string, from: nat := 0): (r: Option<nat>)
    requires from <= |s|
    requires p != []
    ensures r.Some? ==> from <= r.value && OccursAt(s, p, r.value)
    ensures r.Some? ==> forall j :: from <= j < r.value ==> !OccursAt(s, p, j)
    ensures r.None? ==> forall j :: from <= j <= |s| ==> !OccursAt(s, p, j)
    decreases |s| - from
  {
    if from + |p| > |s| then None
    else if s[from..from + |p|] == p then Some(from)
    else FindFirst(s, p, from + 1)
  }

  /** `drop { $0 == c }`: removes the leading run of `c`. */
  function DropLeading(s: string, c: char): (r: string)
    ensures |r| <= |s| && r == s[|s| - |r|..]
    ensures r == [] || r[0] != c
    ensures forall i :: 0 <= i < |s| - |r| ==> s[i] == c
  {
    if s != [] && s[0] == c then DropLeading(s[1..], c) else s
  }

  // ---------------------------------------------------------------------------
  // Joining and splitting

  /** Concatenation of the pieces with nothing between them. */
  function Concat(pieces: seq<string>): string {
    if pieces == [] then [] else pieces[0] + Concat(pieces[1..])
  }

  /** `joined(separator:)`. */
  function Join(pieces: seq<string>, sep: string): string {
    if pieces == [] then []
    else if |pieces| == 1 then pieces[0]
    else pieces[0] + sep + Join(pieces[1..], sep)
  }

  /** The characters of `s` outside `k`, in order. */
  function Without(s: string, k: CharClass): string {
    if s == [] then [] else (if In(k, s[0]) then [] else [s[0]]) + Without(s[1..], k)
  }

  lemma {:induction false} WithoutAppend(a: string, b: string, k: CharClass)
    ensures Without(a + b, k) == Without(a, k) + Without(b, k)
  {
    if a != [] {
      assert a + b != [] && (a + b)[0] == a[0];
      assert (a + b)[1..] == a[1..] + b;
      WithoutAppend(a[1..], b, k);
      var head := if In(k, a[0]) then [] else [a[0]];
      assert Without(a + b, k) == head + Without(a[1..] + b, k);
      Assoc(head, Without(a[1..], k), Without(b, k));
    } else {
      assert a + b == b;
    }
  }

  lemma WithoutNone(s: string, k: CharClass)
    requires NoneIn(s, k)
    ensures Without(s, k) == s
  {
    if s != [] {
      WithoutNone(s[1..], k);
    }
  }

  /** Length of the leading run of characters outside `k`. */
  function RunLength(s: string, k: CharClass): (n: nat)
    ensures n <= |s|
  {
    if s == [] || In(k, s[0]) then 0 else 1 + RunLength(s[1..], k)
  }

  /** The run is free of `k` and stops at the end or at a `k` character. */
  lemma {:induction false} RunLengthFacts(s: string, k: CharClass)
    ensures var n := RunLength(s, k);
      NoneIn(s[..n], k) && (n == |s| || In(k, s[n]))
  {
    if s != [] && !In(k, s[0]) {
      var m := RunLength(s[1..], k);
      RunLengthFacts(s[1..], k);
      assert s[..m + 1] == [s[0]] + s[1..][..m];
    }
  }

  /** `split(whereSeparator:)` with its default `omittingEmptySubsequences`:
      the maximal non-empty runs of characters outside `k`. */
  function Split(s: string, k: CharClass): seq<string>
    decreases |s|
  {
    if s == [] then []
    else if In(k, s[0]) then Split(s[1..], k)
    else
      var n := RunLength(s, k);
      [s[..n]] + Split(s[n..], k)
  }

  /** Every piece is non-empty and free of separators. */
  lemma {:induction false} SplitPieces(s: string, k: CharClass)
    ensures forall i :: 0 <= i < |Split(s, k)| ==> Split(s, k)[i] != [] && NoneIn(Split(s, k)[i], k)
    decreases |s|
  {
    if s != [] {
      if In(k, s[0]) {
        SplitPieces(s[1..], k);
      } else {
        var n := RunLength(s, k);
        RunLengthFacts(s, k);
        SplitPieces(s[n..], k);
        var r := Split(s, k);
        assert r == [s[..n]] + Split(s[n..], k);
        assert forall i :: 1 <= i < |r| ==> r[i] == Split(s[n..], k)[i - 1];
      }
    }
  }

  /** The pieces, put back together, are the text without its separators. */
  lemma {:induction false} SplitConcat(s: string, k: CharClass)
    ensures Concat(Split(s, k)) == Without(s, k)
    decreases |s|
  {
    if s != [] {
      if In(k, s[0]) {
        SplitConcat(s[1..], k);
      } else {
        var n := RunLength(s, k);
        var rest := Split(s[n..], k);
        RunLengthFacts(s, k);
        SplitConcat(s[n..], k);
        assert s == s[..n] + s[n..];
        WithoutAppend(s[..n], s[n..], k);
        WithoutNone(s[..n], k);
        assert Split(s, k) == [s[..n]] + rest;
        assert ([s[..n]] + rest)[1..] == rest;
      }
    }
  }

  lemma SplitNone(s: string, k: CharClass)
    requires s != [] && NoneIn(s, k)
    ensures Split(s, k) == [s]
  {
    RunLengthFacts(s, k);
    assert RunLength(s, k) == |s|;
    assert s[..|s|] == s;
    assert s[|s|..] == [];
  }

  lemma SplitAllIn(s: string, k: CharClass)
    requires AllIn(s, k)
    ensures Split(s, k) == []
  {
    if s != [] {
      SplitAllIn(s[1..], k);
    }
  }

  lemma RunLengthSep(a: string, c: char, b: string, k: CharClass)
    requires In(k, c)
    ensures RunLength(a + [c] + b, k) == RunLength(a, k)
  {
    if a != [] && !In(k, a[0]) {
      assert (a + [c] + b)[1..] == a[1..] + [c] + b;
      RunLengthSep(a[1..], c, b, k);
    }
  }

  /** A separator character cuts the text into the pieces of either side. */
  lemma {:induction false} SplitAtSeparator(a: string, c: char, b: string, k: CharClass)
    requires In(k, c)
    ensures Split(a + [c] + b, k) == Split(a, k) + Split(b, k)
    decreases |a|, 1
  {
    var s := a + [c] + b;
    if a == [] {
      assert s[0] == c && s[1..] == b;
    } else if In(k, a[0]) {
      assert s[0] == a[0] && s[1..] == a[1..] + [c] + b;
      SplitAtSeparator(a[1..], c, b, k);
    } else {
      SplitAtSeparatorRun(a, c, b, k);
    }
  }

  lemma {:induction false} SplitAtSeparatorRun(a: string, c: char, b: string, k: CharClass)
    requires In(k, c) && a != [] && !In(k, a[0])
    ensures Split(a + [c] + b, k) == Split(a, k) + Split(b, k)
    decreases |a|, 0
  {
    var s := a + [c] + b;
    var n := RunLength(a, k);
    RunLengthSep(a, c, b, k);
    assert s[0] == a[0];
    SplitRun(s, k);
    SplitRun(a, k);
    SlicesAroundSeparator(a, c, b, n);
    SplitAtSeparator(a[n..], c, b, k);
    Assoc([a[..n]], Split(a[n..], k), Split(b, k));
  }

  /** A text opening with a non-separator splits into its leading run and the rest. */
  lemma SplitRun(s: string, k: CharClass)
    requires s != [] && !In(k, s[0])
    ensures Split(s, k) == [s[..RunLength(s, k)]] + Split(s[RunLength(s, k)..], k)
  {
  }

  lemma Assoc<T>(x: seq<T>, y: seq<T>, z: seq<T>)
    ensures x + (y + z) == (x + y) + z
  {
  }

  lemma SlicesAroundSeparator(a: string, c: char, b: string, n: nat)
    requires n <= |a|
    ensures (a + [c] + b)[..n] == a[..n]
    ensures (a + [c] + b)[n..] == a[n..] + [c] + b
  {
  }

  /** Splitting a join of separator-free, non-empty pieces gives the pieces back. */
  lemma {:induction false} SplitJoin(pieces: seq<string>, c: char, k: CharClass)
    requires In(k, c)
    requires forall i :: 0 <= i < |pieces| ==> pieces[i] != [] && NoneIn(pieces[i], k)
    ensures Split(Join(pieces, [c]), k) == pieces
  {
    if |pieces| == 1 {
      SplitNone(pieces[0], k);
    } else if |pieces| > 1 {
      SplitJoin(pieces[1..], c, k);
      assert Join(pieces, [c]) == pieces[0] + [c] + Join(pieces[1..], [c]);
      SplitAtSeparator(pieces[0], c, Join(pieces[1..], [c]), k);
      SplitNone(pieces[0], k);
      assert pieces == [pieces[0]] + pieces[1..];
    }
  }

  // ---------------------------------------------------------------------------
  // Class membership across joins and splits

  lemma AllInAppend(a: string, b: string, k: CharClass)
    ensures AllIn(a + b, k) <==> AllIn(a, k) && AllIn(b, k)
  {
    assert forall i :: 0 <= i < |a| ==> (a + b)[i] == a[i];
    assert forall i :: 0 <= i < |b| ==> (a + b)[|a| + i] == b[i];
  }

  lemma {:induction false} AllInConcat(pieces: seq<string>, k: CharClass)
    ensures AllIn(Concat(pieces), k) <==> forall i :: 0 <= i < |pieces| ==> AllIn(pieces[i], k)
  {
    if pieces != [] {
      AllInConcat(pieces[1..], k);
      AllInAppend(pieces[0], Concat(pieces[1..]), k);
      assert forall i :: 1 <= i < |pieces| ==> pieces[1..][i - 1] == pieces[i];
    }
  }

  lemma {:induction false} AllInJoin(pieces: seq<string>, sep: string, k: CharClass)
    requires AllIn(sep, k)
    ensures AllIn(Join(pieces, sep), k) <==> forall i :: 0 <= i < |pieces| ==> AllIn(pieces[i], k)
  {
    if |pieces| > 1 {
      AllInJoin(pieces[1..], sep, k);
      AllInAppend(pieces[0] + sep, Join(pieces[1..], sep), k);
      AllInAppend(pieces[0], sep, k);
      assert forall i :: 1 <= i < |pieces| ==> pieces[1..][i - 1] == pieces[i];
    }
  }

  /** Every class lies inside `Whitespace`, so removing one keeps a text
      blank exactly when it was blank. */
  lemma {:induction false} AllInWithout(s: string, k: CharClass)
    ensures AllIn(Without(s, k), Whitespace) <==> AllIn(s, Whitespace)
  {
    if s != [] {
      AllInWithout(s[1..], k);
      var head := if In(k, s[0]) then [] else [s[0]];
      AllInAppend(head, Without(s[1..], k), Whitespace);
      AllInAppend([s[0]], s[1..], Whitespace);
      assert s == [s[0]] + s[1..];
    }
  }

  /** A text is blank exactly when every piece `Split` cuts it into is blank. */
  lemma SplitBlank(s: string, k: CharClass)
    ensures AllIn(s, Whitespace) ==> forall i :: 0 <= i < |Split(s, k)| ==> AllIn(Split(s, k)[i], Whitespace)
    ensures (forall i :: 0 <= i < |Split(s, k)| ==> AllIn(Split(s, k)[i], Whitespace)) ==> AllIn(s, Whitespace)
  {
    var r := Split(s, k);
    SplitConcat(s, k);
    AllInConcat(r, Whitespace);
    AllInWithout(s, k);
  }
}

=== FILE: timestamps.dfy ===
/** Creation instants as the filename codec writes them with the
    `yyyy-MM-dd-HH-mm-ss` date format: six calendar fields. Time zones,
    daylight-saving gaps and locale are not part of the model. */
module Timestamps {
  import opened Wrappers

  datatype Timestamp = Timestamp(year: nat, month: nat, day: nat, hour: nat, minute: nat, second: nat)

  predicate IsLeapYear(y: nat) {
    (y % 4 == 0 && y % 100 != 0) || y % 400 == 0
  }

  function DaysInMonth(y: nat, m: nat): nat {
    if m == 2 then (if IsLeapYear(y) then 29 else 28)
    else if m == 4 || m == 6 || m == 9 || m == 11 then 30
    else 31
  }

  /** A date a strict Gregorian `DateFormatter` accepts and can print with four year digits. */
  predicate Valid(t: Timestamp) {
    && 1 <= t.year <= 9999
    && 1 <= t.month <= 12
    && 1 <= t.day <= DaysInMonth(t.year, t.month)
    && t.hour < 24 && t.minute < 60 && t.second < 60
  }

  /** Chronological order: `a` is strictly earlier than `b`. */
  predicate Before(a: Timestamp, b: Timestamp) {
    || a.year < b.year
    || (a.year == b.year && a.month < b.month)
    || (a.year == b.year && a.month == b.month && a.day < b.day)
    || (a.year == b.year && a.month == b.month && a.day == b.day && a.hour < b.hour)
    || (a.year == b.year && a.month == b.month && a.day == b.day && a.hour == b.hour && a.minute < b.minute)
    || (a.year == b.year && a.month == b.month && a.day == b.day && a.hour == b.hour && a.minute == b.minute
        && a.second < b.second)
  }

  lemma BeforeIsStrictTotalOrder(a: Timestamp, b: Timestamp, c: Timestamp)
    ensures !Before(a, a)
    ensures Before(a, b) && Before(b, c) ==> Before(a, c)
    ensures a == b || Before(a, b) || Before(b, a)
    ensures !(Before(a, b) && Before(b, a))
  {
  }

  // ---------------------------------------------------------------------------
  // Fixed-width decimal fields

  function Pow10(w: nat): nat {
    if w == 0 then 1 else 10 * Pow10(w - 1)
  }

  predicate IsDigit(c: char) {
    '0' <= c <= '9'
  }

  predicate AllDigits(s: string) {
    forall i :: 0 <= i < |s| ==> IsDigit(s[i])
  }

  function DigitChar(d: nat): char
    requires d < 10
  {
    ('0' as int + d) as char
  }

  /** `n` zero-padded to exactly `w` digits. */
  function Pad(n: nat, w: nat): (r: string)
    requires n < Pow10(w)
    ensures |r| == w && AllDigits(r)
  {
    if w == 0 then [] else Pad(n / 10, w - 1) + [DigitChar(n % 10)]
  }

  /** The value of a string of decimal digits. */
  function DigitsValue(s: string): nat
    requires AllDigits(s)
  {
    if s == [] then 0 else DigitsValue(s[..|s| - 1]) * 10 + (s[|s| - 1] as int - '0' as int)
  }

  lemma {:induction false} DigitsValuePad(n: nat, w: nat)
    requires n < Pow10(w)
    ensures DigitsValue(Pad(n, w)) == n
  {
    if w > 0 {
      var p := Pad(n, w);
      DigitsValuePad(n / 10, w - 1);
      assert p[..|p| - 1] == Pad(n / 10, w - 1);
    }
  }

  // ---------------------------------------------------------------------------
  // The `yyyy-MM-dd-HH-mm-ss` layout

  predicate IsDashPosition(i: int) {
    i == 4 || i == 7 || i == 10 || i == 13 || i == 16
  }

  /** What the regex group `\d{4}-\d{2}-\d{2}-\d{2}-\d{2}-\d{2}` admits. */
  predicate HasShape(s: string) {
    |s| == 19 && forall i :: 0 <= i < 19 ==> if IsDashPosition(i) then s[i] == '-' else IsDigit(s[i])
  }

  function Format(t: Timestamp): (r: string)
    requires Valid(t)
    ensures |r| == 19 && HasShape(r)
  {
    var r := Pad(t.year, 4) + "-" + Pad(t.month, 2) + "-" + Pad(t.day, 2) + "-"
             + Pad(t.hour, 2) + "-" + Pad(t.minute, 2) + "-" + Pad(t.second, 2);
    ShapeOfFields(Pad(t.year, 4), Pad(t.month, 2), Pad(t.day, 2), Pad(t.hour, 2), Pad(t.minute, 2), Pad(t.second, 2));
    r
  }

  /** Six digit fields of widths 4, 2, 2, 2, 2, 2 joined by dashes have the
      filename shape, each field at its place. */
  lemma ShapeOfFields(y: string, mo: string, d: string, h: string, mi: string, sec: string)
    requires |y| == 4 && |mo| == 2 && |d| == 2 && |h| == 2 && |mi| == 2 && |sec| == 2
    requires AllDigits(y) && AllDigits(mo) && AllDigits(d) && AllDigits(h) && AllDigits(mi) && AllDigits(sec)
    ensures var r := y + "-" + mo + "-" + d + "-" + h + "-" + mi + "-" + sec;
      && HasShape(r)
      && r[0..4] == y && r[5..7] == mo && r[8..10] == d
      && r[11..13] == h && r[14..16] == mi && r[17..19] == sec
  {
    var r := y + "-" + mo + "-" + d + "-" + h + "-" + mi + "-" + sec;
    assert r[0..4] == y;
    assert r[5..7] == mo;
    assert r[8..10] == d;
    assert r[11..13] == h;
    assert r[14..16] == mi;
    assert r[17..19] == sec;
  }

  function FieldsOf(s: string): Timestamp
    requires HasShape(s)
  {
    Timestamp(DigitsValue(s[0..4]), DigitsValue(s[5..7]), DigitsValue(s[8..10]),
              DigitsValue(s[11..13]), DigitsValue(s[14..16]), DigitsValue(s[17..19]))
  }

  /** `DateFormatter.date(from:)` with the filename format: the shape must
      match and the fields must name a real instant. */
  function Parse(s: string): (r: Option<Timestamp>)
    ensures r.Some? ==> HasShape(s) && Valid(r.value)
    ensures HasShape(s) && Valid(FieldsOf(s)) ==> r.Some?
  {
    if HasShape(s) && Valid(FieldsOf(s)) then Some(FieldsOf(s)) else None
  }

  /** Parsing the printed form gives the same instant back. */
  lemma ParseFormat(t: Timestamp)
    requires Valid(t)
    ensures Parse(Format(t)) == Some(t)
  {
    var r := Format(t);
    assert r[0..4] == Pad(t.year, 4);
    assert r[5..7] == Pad(t.month, 2);
    assert r[8..10] == Pad(t.day, 2);
    assert r[11..13] == Pad(t.hour, 2);
    assert r[14..16] == Pad(t.minute, 2);
    assert r[17..19] == Pad(t.second, 2);
    DigitsValuePad(t.year, 4);
    DigitsValuePad(t.month, 2);
    DigitsValuePad(t.day, 2);
    DigitsValuePad(t.hour, 2);
    DigitsValuePad(t.minute, 2);
    DigitsValuePad(t.second, 2);
  }

  /** A digit string, read as a number and padded back to its width, is
      itself: the field widths lose no leading zeros. */
  lemma {:induction false} PadDigitsValue(s: string)
    requires AllDigits(s)
    ensures DigitsValue(s) < Pow10(|s|) && Pad(DigitsValue(s), |s|) == s
  {
    if s != [] {
      var p := s[..|s| - 1];
      var d := s[|s| - 1] as int - '0' as int;
      assert AllDigits(p) by {
        forall i | 0 <= i < |p| ensures IsDigit(p[i]) { assert p[i] == s[i]; }
      }
      PadDigitsValue(p);
      var n := DigitsValue(s);
      assert n == DigitsValue(p) * 10 + d;
      DivModDigit(DigitsValue(p), d);
      assert DigitChar(d) == s[|s| - 1];
      assert s == p + [s[|s| - 1]];
    }
  }

  lemma DivModDigit(q: nat, d: nat)
    requires d < 10
    ensures (q * 10 + d) / 10 == q && (q * 10 + d) % 10 == d
  {
  }

  /** A shaped text is its six digit fields joined by dashes. */
  lemma ShapeSplits(s: string)
    requires HasShape(s)
    ensures AllDigits(s[0..4]) && AllDigits(s[5..7]) && AllDigits(s[8..10])
    ensures AllDigits(s[11..13]) && AllDigits(s[14..16]) && AllDigits(s[17..19])
    ensures s == s[0..4] + "-" + s[5..7] + "-" + s[8..10] + "-" + s[11..13] + "-" + s[14..16] + "-" + s[17..19]
  {
    assert forall i :: 0 <= i < 4 ==> s[0..4][i] == s[i];
    assert forall i :: 0 <= i < 2 ==> s[5..7][i] == s[5 + i] && s[8..10][i] == s[8 + i];
    assert forall i :: 0 <= i < 2 ==> s[11..13][i] == s[11 + i] && s[14..16][i] == s[14 + i];
    assert forall i :: 0 <= i < 2 ==> s[17..19][i] == s[17 + i];
  }

  /** Every text the parser accepts is the printed form of the instant it
      reads: the value parsed is the one written in the text. */
  lemma FormatParse(s: string)
    requires Parse(s).Some?
    ensures Format(Parse(s).value) == s
  {
    ShapeSplits(s);
    PadDigitsValue(s[0..4]);
    PadDigitsValue(s[5..7]);
    PadDigitsValue(s[8..10]);
    PadDigitsValue(s[11..13]);
    PadDigitsValue(s[14..16]);
    PadDigitsValue(s[17..19]);
  }
}

=== FILE: uuids.dfy ===
/** Foundation's `UUID` as far as the filename codec sees it: 128 bits written
    as 36 characters, five groups of 8-4-4-4-12 hexadecimal digits. */
module Uuids {
  import opened Wrappers

  type Nibble = n: int | 0 <= n < 16

  /** A UUID as its 32 hexadecimal digits. */
  type Uuid = s: seq<Nibble> | |s| == 32 witness seq(32, _ => 0)

  /** Upper-case digit, as `uuidString` and string interpolation print it. */
  function HexChar(n: Nibble): char {
    if n < 10 then ('0' as int + n) as char else ('A' as int + n - 10) as char
  }

  /** Either letter case is accepted when parsing. */
  function HexValue(c: char): Option<Nibble> {
    if '0' <= c <= '9' then Some(c as int - '0' as int)
    else if 'A' <= c <= 'F' then Some(c as int - 'A' as int + 10)
    else if 'a' <= c <= 'f' then Some(c as int - 'a' as int + 10)
    else None
  }

  predicate IsDashPosition(i: int) {
    i == 8 || i == 13 || i == 18 || i == 23
  }

  /** The characters a formatted UUID is made of. */
  predicate IsUuidChar(c: char) {
    c == '-' || '0' <= c <= '9' || 'A' <= c <= 'F'
  }

  /** Position of the `j`-th digit in the 36-character text. */
  function CharIndex(j: nat): (i: nat)
    requires j < 32
    ensures i < 36 && !IsDashPosition(i)
  {
    if j < 8 then j else if j < 12 then j + 1 else if j < 16 then j + 2 else if j < 20 then j + 3 else j + 4
  }

  /** Inverse of `CharIndex` on the digit positions. */
  function DigitIndex(i: nat): (j: nat)
    requires i < 36 && !IsDashPosition(i)
    ensures j < 32 && CharIndex(j) == i
  {
    if i < 8 then i else if i < 13 then i - 1 else if i < 18 then i - 2 else if i < 23 then i - 3 else i - 4
  }

  /** `"\(id)"`: the canonical upper-case 8-4-4-4-12 text. */
  function Format(u: Uuid): (r: string)
    ensures |r| == 36
    ensures forall i :: 0 <= i < 36 ==> IsUuidChar(r[i]) && (r[i] == '-' <==> IsDashPosition(i))
  {
    seq(36, i requires 0 <= i < 36 => if IsDashPosition(i) then '-' else HexChar(u[DigitIndex(i)]))
  }

  /** Text with dashes exactly at the four group boundaries and hex digits elsewhere. */
  predicate WellFormed(s: string) {
    |s| == 36 && forall i :: 0 <= i < 36 ==> if IsDashPosition(i) then s[i] == '-' else HexValue(s[i]).Some?
  }

  /** `UUID(uuidString:)`. */
  function Parse(s: string): (r: Option<Uuid>)
    ensures r.Some? <==> WellFormed(s)
    ensures r.Some? ==> forall j :: 0 <= j < 32 ==> HexValue(s[CharIndex(j)]) == Some(r.value[j])
  {
    if WellFormed(s) then Some(seq(32, j requires 0 <= j < 32 => HexValue(s[CharIndex(j)]).value))
    else None
  }

  /** Parsing the printed form gives the same UUID back. */
  lemma ParseFormat(u: Uuid)
    ensures Parse(Format(u)) == Some(u)
  {
    var s := Format(u);
    forall i | 0 <= i < 36 && !IsDashPosition(i)
      ensures HexValue(s[i]) == Some(u[DigitIndex(i)])
    {
    }
    assert WellFormed(s);
    var v := Parse(s).value;
    forall j | 0 <= j < 32 ensures v[j] == u[j] {
      assert DigitIndex(CharIndex(j)) == j;
    }
    assert v == u;
  }

  /** Distinct UUIDs print differently. */
  lemma FormatInjective(u: Uuid, w: Uuid)
    requires Format(u) == Format(w)
    ensures u == w
  {
    ParseFormat(u);
    ParseFormat(w);
  }
}

=== FILE: weekdays.dfy ===
/** The column headings of the calendar: the first letter of each short
    weekday name, starting from the locale's first day of the week. The
    locale's symbols and first weekday are parameters. */
module Weekdays {
  import opened Text

  /** One step of the source's loop: the first symbol moves to the end. An
      empty list stays empty. */
  function RotateOnce(ws: seq<string>): (r: seq<string>)
    ensures |r| == |ws|
  {
    if ws == [] then []
    else
      assert ws == [ws[0]] + ws[1..];
      ws[1..] + [ws[0]]
  }

  /** `k` steps of the loop. */
  function Rotate(ws: seq<string>, k: nat): (r: seq<string>)
    ensures |r| == |ws|
  {
    if k == 0 then ws else RotateOnce(Rotate(ws, k - 1))
  }

  /** After `k` steps the symbol at position `i` is the one that was `k`
      places further on, counting round the week. */
  lemma {:induction false} RotateIndex(ws: seq<string>, k: nat, i: nat)
    requires i < |ws|
    ensures Rotate(ws, k)[i] == ws[(i + k) % |ws|]
  {
    if k > 0 {
      var n := |ws|;
      var prev := Rotate(ws, k - 1);
      assert Rotate(ws, k) == prev[1..] + [prev[0]];
      if i + 1 < n {
        RotateIndex(ws, k - 1, i + 1);
        assert Rotate(ws, k)[i] == prev[i + 1];
        assert i + 1 + (k - 1) == i + k;
      } else {
        RotateIndex(ws, k - 1, 0);
        assert Rotate(ws, k)[i] == prev[0];
        ModWrap(k - 1, n);
        assert k - 1 + n == i + k;
      }
    }
  }

  lemma MulAtLeast(d: int, n: int)
    requires n > 0 && d >= 1
    ensures d * n >= n
  {
    assert d * n == n + (d - 1) * n;
  }

  /** The remainder is the only `r` in `[0, n)` that makes `x` a multiple
      of `n` plus `r`. */
  lemma ModUnique(x: int, n: int, q: int, r: int)
    requires n > 0 && x == q * n + r && 0 <= r < n
    ensures x % n == r
  {
    var d := x / n - q;
    assert d * n == r - x % n by {
      assert x == (x / n) * n + x % n;
      assert (x / n) * n - q * n == d * n;
    }
    if d >= 1 {
      MulAtLeast(d, n);
    } else if d <= -1 {
      MulAtLeast(-d, n);
    }
  }

  lemma ModWrap(a: nat, n: nat)
    requires n > 0
    ensures (a + n) % n == a % n
  {
    assert a == (a / n) * n + a % n;
    ModUnique(a + n, n, a / n + 1, a % n);
  }

  lemma ModOnce(i: nat, n: nat)
    requires i < n
    ensures (i + n) % n == i
  {
    ModUnique(i + n, n, 1, i);
  }

  /** Seven steps on a seven-day week, or `n` steps on any list of `n`,
      give back the list they started from. */
  lemma RotateFullCircle(ws: seq<string>)
    ensures Rotate(ws, |ws|) == ws
  {
    var n := |ws|;
    var r := Rotate(ws, n);
    forall i | 0 <= i < n ensures r[i] == ws[i] {
      RotateIndex(ws, n, i);
      ModOnce(i, n);
    }
  }

  /** `String(symbol.prefix(1)).capitalized`: the first character in upper
      case, or nothing for an empty symbol. */
  function Initial(symbol: string): (r: string)
    ensures |r| <= 1
    ensures r == [] <==> symbol == []
    ensures r != [] ==> r[0] == UpperChar(symbol[0])
  {
    if symbol == [] then [] else [UpperChar(symbol[0])]
  }

  /** `capitalizedFirstLettersOfWeekdays`: when the first weekday is later
      than the first symbol, the symbols are rotated one step for each day
      it is later; then every symbol becomes its initial. */
  method CapitalizedFirstLetters(symbols: seq<string>, firstWeekday: int) returns (initials: seq<string>)
    ensures |initials| == |symbols|
    ensures firstWeekday <= 1 ==>
      forall i :: 0 <= i < |symbols| ==> initials[i] == Initial(symbols[i])
    ensures firstWeekday > 1 ==>
      forall i :: 0 <= i < |symbols| ==> initials[i] == Initial(symbols[(i + firstWeekday - 1) % |symbols|])
  {
    var weekdays := symbols;
    if firstWeekday > 1 {
      var k := 1;
      while k < firstWeekday
        invariant 1 <= k <= firstWeekday
        invariant weekdays == Rotate(symbols, k - 1)
      {
        if weekdays != [] {
          var first := weekdays[0];
          weekdays := weekdays + [first];
          weekdays := weekdays[1..];
        }
        k := k + 1;
      }
      forall i | 0 <= i < |symbols| ensures weekdays[i] == symbols[(i + firstWeekday - 1) % |symbols|] {
        RotateIndex(symbols, firstWeekday - 1, i);
      }
    }
    initials := [];
    var j := 0;
    while j < |weekdays|
      invariant 0 <= j <= |weekdays| && |weekdays| == |symbols|
      invariant |initials| == j
      invariant forall m :: 0 <= m < j ==> initials[m] == Initial(weekdays[m])
    {
      initials := initials + [Initial(weekdays[j])];
      j := j + 1;
    }
  }
}

=== FILE: wrappers.dfy ===
/** Optional and fallible values: the Swift code's `T?` results and its
    `throws` / early-`return` error paths. */
module Wrappers {

  datatype Option<+T> = None | Some(value: T) {
    function GetOr(default: T): T {
      match this
      case Some(v) => v
      case None => default
    }
  }

  datatype Result<+T, +E> = Ok(value: T) | Err(error: E)
}
